=== FILE: README.md ===
# AI Code Review Bot — a Dafny model of the review pipeline

The AI Code Review Bot is a small web service. A client posts a code snippet
(and optionally its language) to `/review_code`. The service builds a review
prompt and sends it to one of four AI providers: OpenAI, Hugging Face, Groq
or Google Gemini. It then turns the provider's free-text reply into a
structured review with four fields: `summary`, `issues`, `suggestions` and
`improved_code`. Any failure is mapped to an HTTP error category.

This project models the decisions of that pipeline as pure Dafny functions
and proves what they promise.

- **Configuration** (`config.dfy`, module `Config`). The provider identifier
  is read case-insensitively from the environment, with Gemini as the
  default. Start-up validation refuses a missing OpenAI, Groq or Gemini key
  and a missing Gemini package. It only warns about a missing Hugging Face
  key, and it passes an unknown identifier silently. `main.py` repeats the
  same checks at import time (`backend/main.py:55-92`), so the same function
  models both.
- **Error payloads** (`exceptions.dfy`, module `Errors`). The five HTTP
  errors: quota (402), rate limit (429), authentication (401, naming the
  key variable of the configured provider), upstream API error (502,
  message verbatim) and unexpected error (500, message prefixed).
- **Classifier** (`classifier.dfy`, module `Classifier`). The keyword rules,
  checked in source order over the lower-cased exception text. Two
  variants exist:
  - the service's `_handle_exception`, whose fall-through is 500;
  - the monolith's handler in `main.py`, whose second `except Exception`
    clause is unreachable, so its fall-through is 502.

  The classifier is proved equal to a reference "first firing rule"
  definition over an explicit rule table.
- **Normaliser** (`normaliser.dfy`, module `Normaliser`). This covers:
  - the code-fence strip. Python's `str.strip(chars)` strips a character
    set, not a prefix, and the model keeps that;
  - decoding, with the four defaults;
  - the degraded review returned when decoding fails;
  - the `AttributeError` raised when the reply decodes to something other
    than an object.
- **Adapters** (`adapter.dfy`, `huggingface.dfy`, `gemini.dfy`). An
  adapter's outcome is the reply text, a plain exception, or a JSON decode
  error. The prompt embeds the code and the language hint.
  - Hugging Face: the request headers, the endpoint probe with its fallback
    to the first candidate, the one retry after a 503 with its bounded
    wait, the status-to-message table, the extraction of `generated_text`
    from the three response shapes, and the chat-template delimiter strip.
  - Gemini: the list of model names tried (the configured name first, no
    duplicates), the first name that constructs, the error when none does,
    and the prefix on generation failures.
- **Service and application** (`service.dfy`, `app.dfy`). The service covers
  provider selection and `analyze_code`. The application covers
  `main.py`'s own `analyze_code_with_ai` and the `/review_code` handler:
  the framework's 422 for an empty body field, the 400 for blank or
  over-long code, and the response-model check.

Shared Python semantics live in `pystrings.dfy`: ASCII `lower()`, the `in`
operator, `strip`, `split(sep)[-1]`, slicing and `str(int)`. `json.dfy`
holds decoded JSON values, `dict.get`, and the `str()`/`repr()` renderings
that appear in error messages. `wrappers.dfy` holds `Option` and `Result`.

The environment, the network, the AI SDKs, the JSON decoder and the
response-model validator's error text are all parameters:

- the environment is a function from variable name to optional value;
- an endpoint probe is a function from URL to outcome;
- a request is its delivered response or its connection failure;
- model construction is a function from name to success or error;
- `json.loads` is a function from text to a decoded value or a decode error.

Where the code and its documented behaviour (docstrings, messages and
comments) disagree, the model follows the code:

- An empty `code` field is refused by the request model's `min_length=1`
  with 422, before the handler's own 400 check can run
  (`backend/main.py:97`). Whitespace-only code gets the 400.
- `"Rate limit exceeded, too many requests"` contains `exceeded`, which the
  quota rule tests first. It is therefore reported as quota exhaustion
  (402), not as a rate limit (429) (`Classifier.RateLimitExceededIsQuota`,
  `Classifier.ExceededIsAlwaysQuota`).
- A fenced reply gives the same result as the bare reply only when
  whitespace separates the fences from the body. `strip("```json")` also
  eats body letters from the set `` `jsno ``: `"```jsonnull```"` cleans to
  `"ull"` (`Normaliser.FenceStripEatsBodyLetters`), while `"null"` stays
  `"null"`.
- Nothing keeps `summary` non-empty. A reply with `"summary": ""` passes
  through as is (`Normaliser.EmptySummaryPassesThrough`). A summary that is
  not a string (for example `null`) makes the response model refuse the
  review, which the handler turns into a 500.
- The Hugging Face emptiness check runs before the delimiter strip, so a
  reply that is only the delimiter and whitespace yields an empty string,
  not an error (`HuggingFace.DelimiterAloneYieldsEmpty`).
- A 503 whose body claims JSON but does not decode raises a JSON decode
  error out of the adapter (`response.json()`). Both pipelines catch
  `json.JSONDecodeError` and so answer it with the degraded review, not an
  error (`Service.HuggingFaceUndecodableBusyBody`). This takes the decode
  error of `requests` to be a `json.JSONDecodeError`; see "Left out".
- An unknown provider identifier passes start-up validation. The service
  refuses it when it is constructed. The monolith raises it per request
  inside its guarded block, so it is classified like any other exception
  and is never a 500.
- The limit of 10,000 characters is inclusive: code of exactly that length
  is analysed.

## Model

| member | source | states |
|---|---|---|
| Config.ParseProvider | backend/services/code_review_service.py:30-39 | an identifier selects a provider exactly when it is that provider's identifier; no provider has an unrecognised identifier |
| Config.ParseProviderRoundTrip | backend/services/code_review_service.py:30-35 | every provider is selected by its own identifier |
| Config.ParseProviderKnownIds | backend/services/code_review_service.py:30-39 | an identifier is recognised if and only if it is one of `openai`, `huggingface`, `groq`, `gemini` |
| Config.LoadSettings | backend/config.py:18-34 | the identifier is the lower-cased `AI_PROVIDER` value, Gemini when unset, and stays lower-case; a key counts as missing exactly when its variable is unset or empty and is otherwise the variable's value; a model is its variable or, when that is unset, the provider's default |
| Config.DefaultProviderIsGemini | backend/config.py:18 | with `AI_PROVIDER` unset, Gemini is selected |
| Config.SelectionIgnoresCase | backend/config.py:18 | any spelling whose lower-case form is a provider's identifier selects that provider |
| Config.SelectionOfUpperCaseId | backend/config.py:18 | the upper-case identifier selects the same provider |
| Config.ValidateConfiguration | backend/config.py:37-70 | fails exactly for OpenAI, Groq or Gemini without a key, or Gemini without its package; the failure names the active provider; the package is checked before the key; a keyless Hugging Face only warns; an unknown identifier passes silently |
| Errors.QuotaError | backend/exceptions.py:10-22 | status 402 with an error payload that carries a documentation link |
| Errors.RateLimitError | backend/exceptions.py:25-34 | status 429 with an error payload without a documentation link |
| Errors.AuthInfo | backend/exceptions.py:39-54 | a known provider maps to its own key variable; any other identifier maps to `Unknown`, `API_KEY` and an empty help address, and only such identifiers get `Unknown` |
| Errors.AuthError | backend/exceptions.py:37-64 | status 401; the error names the provider, the message names its key variable, the help gives its key page |
| Errors.ApiError | backend/exceptions.py:67-76 | status 502 whose message is the exception text unchanged |
| Errors.UnexpectedError | backend/exceptions.py:79-88 | status 500 whose message is the fixed prefix followed by the exception text |
| Errors.AuthErrorNamesConfiguredKey | backend/exceptions.py:39-62 | the authentication message of every provider contains that provider's key variable |
| Errors.AuthErrorUnknownProvider | backend/exceptions.py:52-62 | an unknown identifier gives `Unknown API Authentication Failed` and an empty key page |
| Classifier.ErrorFor | backend/services/code_review_service.py:96-112 | each category gets its status and payload; the upstream error keeps the message, the unexpected error prefixes it |
| Classifier.HandleException | backend/services/code_review_service.py:92-112 | every exception becomes 402, 429, 401, 502 or 500 with a payload; 502 keeps the message, 500 prefixes it |
| Classifier.FirstMatch | backend/services/code_review_service.py:96-112 | reference semantics of an ordered rule list: the category of the first rule that fires, else the fallback |
| Classifier.QuotaRuleFires | backend/services/code_review_service.py:96-97 | the quota test fires if and only if one of `quota`, `billing`, `exceeded` occurs |
| Classifier.RateLimitRuleFires | backend/services/code_review_service.py:99-100 | the rate-limit test fires if and only if `rate limit` or `too many requests` occurs |
| Classifier.AuthRuleFires | backend/services/code_review_service.py:102-107 | the authentication test fires if and only if `authentication` occurs, or both `invalid` and `key`, or `unauthorized` |
| Classifier.ApiRuleFires | backend/services/code_review_service.py:109-110 | the upstream test fires if and only if `api error` or `api` occurs |
| Classifier.Classify | backend/services/code_review_service.py:92-112 | the category is that of the first rule of the priority table (quota, rate limit, authentication, API) that fires on the lower-cased text, and unexpected error when none fires |
| Classifier.ServiceRulesDecide | backend/services/code_review_service.py:96-112 | first-match evaluation of the rule table agrees with the four keyword tests taken in priority order |
| Classifier.ClassifyIgnoresCase | backend/services/code_review_service.py:94 | texts that agree after lower-casing are classified alike |
| Classifier.ClassifyUpperCase | backend/services/code_review_service.py:94 | upper-casing a text does not change its category |
| Classifier.ExceededIsAlwaysQuota | backend/services/code_review_service.py:96-97 | any text containing `exceeded` is a quota error, whatever else it says |
| Classifier.RateLimitExceededIsQuota | backend/services/code_review_service.py:96-100 | `Rate limit exceeded` is reported as 402, not 429 |
| Classifier.QuotaBeatsRateLimit | backend/services/code_review_service.py:96-100 | a text naming both quota and rate limit is a quota error |
| Classifier.ApiErrorTestSubsumed | backend/services/code_review_service.py:109 | the `api error` alternative adds nothing: the test is equivalent to `api` alone |
| Classifier.ApiMentionNeverUnexpected | backend/services/code_review_service.py:109-112 | a text mentioning `api` is never unexpected and never becomes a 500 |
| Classifier.InvalidAndKeyAnywhereIsAuth | backend/services/code_review_service.py:102-107 | `invalid` and `key` anywhere in the text, without a quota or rate-limit word, give 401 |
| Classifier.UnexpectedIffNoRuleFires | backend/services/code_review_service.py:96-112 | a text is unexpected exactly when none of the four tests fires |
| Classifier.MonolithClassify | backend/main.py:410-475 | the monolith's handler never reports an unexpected error |
| Classifier.MonolithAgreesWithService | backend/main.py:410-465 | the monolith agrees with the service on quota, rate limit and authentication, and reports as upstream everything the service reports as upstream or unexpected |
| Classifier.MonolithHandleException | backend/main.py:410-475 | every exception becomes 402, 429, 401 or 502, and 502 keeps the message |
| Normaliser.BacktickWithinFenceTag | backend/services/code_review_service.py:89 | the characters of the second strip are among those of the first |
| Normaliser.WhitespaceOutsideFenceTag | backend/services/code_review_service.py:89 | no whitespace character is stripped by the fence strips |
| Normaliser.CleanContent | backend/services/code_review_service.py:86-90 | unfenced text is unchanged; fenced text is stripped of the fence characters and then of whitespace, the middle strip never changing anything |
| Normaliser.CleanFencedReply | backend/services/code_review_service.py:86-90 | a body fenced with or without the `json` tag and separated from the fences by whitespace cleans to the stripped body |
| Normaliser.FencedAndBareAgree | backend/services/code_review_service.py:60-62 | when the body neither starts nor ends with whitespace and is not itself fenced, such a fenced reply decodes exactly as the bare body does |
| Normaliser.FenceTagStripOfNull | backend/services/code_review_service.py:89 | stripping the fence characters from "```jsonnull```" leaves `ull` |
| Normaliser.FenceStripEatsBodyLetters | backend/services/code_review_service.py:86-90 | the fenced reply "```jsonnull```" cleans to `ull`, not to `null` |
| Normaliser.BareNullIsKept | backend/services/code_review_service.py:86-90 | the bare reply `null` is left unchanged |
| Normaliser.WithDefaults | backend/services/code_review_service.py:64-69 | each of the four fields is the reply's first entry for its key when present, else its default |
| Normaliser.Degraded | backend/services/code_review_service.py:71-82 | the degraded review: the fixed summary, exactly one issue, the retry hint, no improved code |
| Normaliser.DegradedIssueShape | backend/services/code_review_service.py:74-79 | the one issue has type `error`, severity `medium`, a null line, and a description quoting the decode error |
| Normaliser.Normalise | backend/services/code_review_service.py:59-82 | a decode error gives the degraded review; an object gives the defaulted review; anything else fails, exactly then, with the `AttributeError` text for `get` |
| Normaliser.EmptySummaryPassesThrough | backend/services/code_review_service.py:65 | an empty summary is kept, not replaced by the default |
| Adapter.LanguageHint | backend/providers/gemini_provider.py:70 | the hint is empty exactly when no language, or an empty one, is given |
| Adapter.LanguageTag | backend/providers/gemini_provider.py:93 | the code-block tag is the language when given, else empty |
| Adapter.PromptBeforeCode | backend/providers/gemini_provider.py:90-93 | the text before the code starts with the lead sentence and the hint |
| Adapter.PromptEmbedsCode | backend/providers/gemini_provider.py:88-95 | the prompt starts with the lead and the hint and contains the submitted code verbatim |
| Adapter.PromptCarriesHint | backend/providers/gemini_provider.py:90 | the prompt contains the language hint |
| Adapter.HintNamesLanguage | backend/providers/gemini_provider.py:70 | a given language is named inside the hint |
| Adapter.EmptyLanguageIsNoLanguage | backend/providers/gemini_provider.py:70-95 | an empty language and an absent one give the same prompt |
| HuggingFace.Headers | backend/providers/huggingface_provider.py:16-18 | an authorization header is present exactly when a key is set, and carries it as a bearer token; the content type is always set |
| HuggingFace.Candidates | backend/providers/huggingface_provider.py:99-102 | two distinct endpoints: the router address followed by the model name first, then the legacy address followed by the model name |
| HuggingFace.FirstUsable | backend/providers/huggingface_provider.py:104-115 | the index of the first candidate whose probe answered with a status other than 404 or 410, every earlier one failing |
| HuggingFace.FindWorkingEndpoint | backend/providers/huggingface_provider.py:97-117 | a candidate is always chosen: the first usable one, else the first candidate |
| HuggingFace.Receive | backend/providers/huggingface_provider.py:119-165 | a delivered response passes on unchanged, and only then is there no exception; a connection failure is raised as the first-request or retry prefix followed by the transport's reason, a message that names the API |
| HuggingFace.ConnectPrefixMentionsApi | backend/providers/huggingface_provider.py:135-136 | both connection-failure messages contain `api` once lower-cased, whatever reason follows |
| HuggingFace.WaitFor | backend/providers/huggingface_provider.py:148 | the wait is the estimate plus five seconds, capped at thirty |
| HuggingFace.EstimateSeconds | backend/providers/huggingface_provider.py:147-148 | an integer estimate is used as is and a boolean counts as 0 or 1; exactly those give a number, and any other value fails |
| HuggingFace.RetryWait | backend/providers/huggingface_provider.py:138-148 | the wait never exceeds thirty seconds; a non-JSON content type, or a JSON object without `estimated_time`, waits twenty; an undecodable JSON body raises the decode error; an `estimated_time` that cannot be added to 5 raises that `TypeError`; a JSON body that is not an object raises the `.get` AttributeError |
| HuggingFace.WaitBounds | backend/providers/huggingface_provider.py:147-148 | the default estimate waits twenty seconds, no estimate waits more than thirty, and estimates of 25 or more wait exactly thirty |
| HuggingFace.RetryWaitUsesEstimate | backend/providers/huggingface_provider.py:142-148 | an integer estimate in an object body waits `min(t + 5, 30)` when that is not negative; a negative wait raises the `sleep` `ValueError`, and one too large for 64-bit nanoseconds the `OverflowError` |
| HuggingFace.ErrorText | backend/providers/huggingface_provider.py:172-180 | an undecodable body gives the raw text; an object with `error` gives that entry's text; any other decoded body (an object without `error`, a list, a text, a number) gives `str` of the whole body |
| HuggingFace.ValidationError | backend/providers/huggingface_provider.py:167-204 | no error exactly for 200; fixed messages for 401, 403, 404 (naming the model) and 410; otherwise the status and the error text |
| HuggingFace.ValidationErrorKeywords | backend/providers/huggingface_provider.py:182-204 | every validation message except the missing-model one contains `api` once lower-cased, and the 401 message contains `authentication` |
| HuggingFace.StatusMessageMentionsApi | backend/providers/huggingface_provider.py:204 | the generic rejection message names the API whatever status and body text it carries |
| HuggingFace.GeneratedOf | backend/providers/huggingface_provider.py:214-219 | an object yields its `generated_text` entry, or the empty string when it has none; anything else raises the `AttributeError` for `get` |
| HuggingFace.GeneratedValue | backend/providers/huggingface_provider.py:213-223 | a non-empty list uses its first element, an object its own `generated_text` or else its first value's when that is an object, and every other shape, including an object whose first value is not an object, raises the unexpected-format error |
| HuggingFace.StripValue | backend/providers/huggingface_provider.py:214 | a string, and only a string, is stripped: the result is a slice of it with only whitespace removed at the two ends and none left at either end; any other value raises the `AttributeError` for `strip` |
| HuggingFace.AfterDelimiter | backend/providers/huggingface_provider.py:228-229 | the result never contains the chat-template delimiter; text without it is unchanged; text with it yields the stripped last piece of the split, which directly follows an occurrence of the delimiter |
| HuggingFace.AfterDelimiterOfTurn | backend/providers/huggingface_provider.py:228-229 | for text ending in the delimiter and a delimiter-free tail, the result is that tail stripped, whatever comes before, earlier delimiters included |
| HuggingFace.Extract | backend/providers/huggingface_provider.py:206-231 | an undecodable body raises the invalid-JSON error quoting at most 200 characters; an extracted reply never contains the delimiter and comes from a recognised shape |
| HuggingFace.ExtractOfGeneratedString | backend/providers/huggingface_provider.py:225-231 | blank generated text raises the empty-response error; otherwise the stripped text after the delimiter is returned |
| HuggingFace.ExtractPlainText | backend/providers/huggingface_provider.py:206-231 | a list holding one object with delimiter-free text yields that text stripped |
| HuggingFace.SingleItemListShape | backend/providers/huggingface_provider.py:213-214 | a list holding one object yields that object's generated text |
| HuggingFace.DelimiterAloneYieldsEmpty | backend/providers/huggingface_provider.py:225-229 | generated text that is only the delimiter yields the empty reply |
| HuggingFace.Finish | backend/providers/huggingface_provider.py:42-44 | a non-200 response raises its validation message; a 200 response is extracted |
| HuggingFace.Analyze | backend/providers/huggingface_provider.py:20-44 | one or two requests, two exactly when the first answered 503 and the wait could be computed; the wait is at most thirty; the endpoint is a candidate; a failed connection or an uncomputable wait ends the call with that exception; the reply never contains the delimiter |
| HuggingFace.NoRetryUnless503 | backend/providers/huggingface_provider.py:39-40 | a response other than 503 is final after one request |
| HuggingFace.RetriedResponseIsFinal | backend/providers/huggingface_provider.py:39-44 | the retried response is final, even when it is another 503 |
| HuggingFace.UndecodableBusyBody | backend/providers/huggingface_provider.py:142-147 | a 503 with an undecodable JSON body escapes as a decode error after one request |
| Gemini.FallbacksDistinct | backend/providers/gemini_provider.py:19-24 | the built-in names are distinct |
| Gemini.RemoveFirst | backend/providers/gemini_provider.py:29 | `remove` takes out the first occurrence of the name, keeps every other element in order, and leaves a list one shorter |
| Gemini.RemoveFirstIsWithout | backend/providers/gemini_provider.py:28-30 | on a list without duplicates, `remove` equals filtering the name out |
| Gemini.TryList | backend/providers/gemini_provider.py:19-30 | the configured name comes first, followed by the built-in names without it; no name repeats; four or five names |
| Gemini.FirstBuilt | backend/providers/gemini_provider.py:34-40 | the first name that constructs, every earlier one failing, or none when all fail |
| Gemini.InitModel | backend/providers/gemini_provider.py:17-57 | the model is the first name that constructs; no model exactly when all fail, and then the error quotes the configured name and the last construction error |
| Gemini.ConfiguredNameFirst | backend/providers/gemini_provider.py:26-37 | a configured name that constructs is used at the first attempt |
| Gemini.UnsetNameUsesFallbacks | backend/providers/gemini_provider.py:19-37 | with no configured name, a first built-in name that constructs is used at the first attempt |
| Gemini.Generate | backend/providers/gemini_provider.py:76-86 | a success is the generated text with only whitespace trimmed from its two ends and none left there; a failure, exactly when generation failed, is re-raised as the `Gemini API error: ` prefix followed by the original message, which names the API |
| Gemini.PrefixMentionsApi | backend/providers/gemini_provider.py:86 | the lower-cased prefix contains `api` |
| Gemini.GenerationFailureNeverUnexpected | backend/providers/gemini_provider.py:85-86 | a wrapped generation failure is never classified unexpected and never becomes a 500 |
| Json.Get | backend/services/code_review_service.py:65-68 | lookup finds nothing exactly when no entry has the key, and otherwise the first entry's value |
| Json.GetOfDistinctKeys | backend/services/code_review_service.py:65-68 | with distinct keys, as in a decoded object, `get` finds the value of the one entry under the key, wherever it stands |
| Json.ReprString | backend/providers/huggingface_provider.py:176-178 | `repr` of a text is quoted with matching quotes, double exactly when the text holds a single quote and no double quote |
| Json.Repr | backend/providers/huggingface_provider.py:221 | `repr` writes lists in brackets, objects in braces and texts in matching quotes |
| Json.PyStr | backend/providers/huggingface_provider.py:176-178 | `str` of a text is the text itself; lists and objects are written in brackets and braces |
| Json.ReprOfPlainString | backend/providers/huggingface_provider.py:176-178 | printable ASCII text without quote or backslash is written unchanged between single quotes |
| Json.StrOfSingleEntry | backend/providers/huggingface_provider.py:176 | `str` of a one-entry object with plain key and text is `{'key': 'text'}` |
| Json.NoAttribute | backend/services/code_review_service.py:64 | the `AttributeError` text starts with the quoted Python type name of the value and ends with the quoted attribute name |
| Json.NoAttributeNamesType | backend/services/code_review_service.py:64 | two values whose `AttributeError` texts for one attribute agree have the same Python type |
| PyStrings.LastPiece | backend/providers/huggingface_provider.py:229 | `split(sep)[-1]` is a suffix without the separator; it is the whole text when the separator is absent, and otherwise directly follows an occurrence of the separator |
| PyStrings.LastPieceAfterLast | backend/providers/huggingface_provider.py:229 | with a separator that cannot overlap itself, the last piece of a text ending in the separator and a separator-free tail is exactly that tail |
| PyStrings.ContainsIffOccurs | backend/providers/huggingface_provider.py:228 | `p in s` holds exactly when some position of `s` starts a copy of `p` |
| PyStrings.StripChars | backend/services/code_review_service.py:89 | `strip(chars)` never lengthens the text and leaves it starting and ending outside the character set |
| PyStrings.StripCharsTrims | backend/services/code_review_service.py:89 | `strip(chars)` removes characters of the set only, and only from the two ends |
| PyStrings.Strip | backend/providers/huggingface_provider.py:214 | `strip()` never lengthens the text, and stripping its result again changes nothing |
| PyStrings.Take | backend/providers/huggingface_provider.py:211 | `text[:200]` is a prefix of the text of length at most 200 |
| PyStrings.IntToString | backend/providers/huggingface_provider.py:204 | `str` of the status code is a non-empty numeral that starts with a minus sign exactly when the number is negative |
| PyStrings.NatToStringDenotes | backend/providers/huggingface_provider.py:204 | `str` of a natural number reads back as that number and has no leading zero unless the number is zero |
| PyStrings.IntToStringDenotes | backend/providers/huggingface_provider.py:204 | `str(n)` reads back as `n`: the digits after an optional minus sign denote the magnitude |
| Service.SelectProvider | backend/services/code_review_service.py:28-41 | construction succeeds exactly for the four identifiers, for Gemini only when one of the names it tries constructs; success gives the matching provider; an unknown identifier fails with `Unknown AI provider: ` and the identifier; a Gemini failure carries the not-found message with the last construction error |
| Service.EveryProviderSelectable | backend/services/code_review_service.py:30-41 | every provider but Gemini is selected by its identifier; Gemini exactly when one of the names it tries constructs |
| Service.UnknownProviderRefusedAtSelection | backend/services/code_review_service.py:37-39 | an unknown identifier passes validation silently but is refused when the service is constructed |
| Service.AnalyzeCode | backend/services/code_review_service.py:43-84 | a decode error gives the degraded review; any other exception, including a non-object reply, goes through the classifier; every error is 402, 429, 401, 502 or 500 |
| Service.UndecodableReplyIsDegraded | backend/services/code_review_service.py:59-82 | a reply the decoder refuses yields the degraded review quoting the decode error |
| Service.NonObjectReplyIsClassified | backend/services/code_review_service.py:59-84 | a reply decoding to a non-object is classified through its `AttributeError` text |
| Service.GeminiFailureIsNeverUnexpected | backend/services/code_review_service.py:83-84 | a Gemini generation failure reaches the client as 402, 429, 401 or 502 |
| Service.HuggingFaceConnectFailureNeverUnexpected | backend/providers/huggingface_provider.py:119-136 | when the first request cannot connect, the adapter's reply reaches the client as an error other than 500 |
| Service.HuggingFaceRetryConnectFailureNeverUnexpected | backend/providers/huggingface_provider.py:150-165 | when the retry after a 503 cannot connect, the adapter's reply reaches the client as an error other than 500 |
| Service.HuggingFaceValidationFailureClassified | backend/providers/huggingface_provider.py:182-204 | a rejected response other than 404 is never classified unexpected nor reported as 500, and a 401 is classified as quota, rate limit or authentication |
| Service.HuggingFaceUndecodableBusyBody | backend/services/code_review_service.py:59-82 | a Hugging Face 503 with an undecodable JSON body ends in the degraded review |
| App.AnalyzeWithAi | backend/main.py:157-475 | an unknown identifier fails per request through the handler; an undecodable reply gives the degraded review; every error is 402, 429, 401 or 502 |
| App.MonolithMatchesService | backend/main.py:381-465 | for a known provider the monolith and the service succeed together with the same review, and fail with the same status except that 500 becomes 502 |
| App.UnknownProviderPerRequest | backend/main.py:378-379 | an unknown identifier fails the same way whatever the reply, and never with 500 |
| App.MonolithGeminiFailureIsUpstream | backend/main.py:367-377 | a Gemini generation failure is handled with its prefix and never becomes a 500 |
| App.MonolithHuggingFaceUndecodableBusyBody | backend/main.py:229-234 | a Hugging Face 503 with an undecodable JSON body yields the degraded review |
| App.Conforms | backend/main.py:101-106 | the response model accepts a review exactly when its summary is a text, its issues and suggestions are lists and its improved code is a text or null |
| App.ConformsIffFieldsFit | backend/main.py:101-106 | the conformance test is exactly field-by-field validation against the declared field types of the response model |
| App.DegradedConforms | backend/main.py:101-106 | the degraded review satisfies the response model |
| App.NullSummaryDoesNotConform | backend/main.py:101-106 | a null summary does not satisfy the response model |
| App.ReviewCode | backend/main.py:494-536 | empty code gets 422; blank code gets the empty-code 400, checked before the length; over-long code gets the length 400; otherwise the request is served exactly when the analysis succeeds with a review the response model accepts, analysis errors pass through, and a refused review becomes a 500 with a plain message |
| App.InputRejectedBeforeProvider | backend/main.py:508-524 | blank or over-long code is refused with 400 or 422 whatever the provider would answer |
| App.EmptinessCheckedFirst | backend/main.py:509-520 | over-long blank code gets the empty-code message |
| App.RepeatedLetterTooLong | backend/main.py:515-520 | a run of one letter longer than 10,000 characters gets the length message |
| App.MaximumLengthAccepted | backend/main.py:516 | code of exactly 10,000 characters never gets the length message: the analysis's error, or its review when the response model accepts it, is what the client receives |
| App.UndecodableReplyServed | backend/main.py:522-526 | an undecodable reply from a known provider reaches the client as the degraded review |

## Left out

- Network, SDK and clock calls. The requests, the endpoint probes, the
  Gemini model construction and generation, and `time.sleep` are inputs.
  The model records the computed wait, not the pause.
- The OpenAI and Groq adapters (`backend/providers/openai_provider.py`,
  `backend/providers/groq_provider.py`). They are plain SDK or HTTP calls,
  so they appear only through the reply they produce.
- The Gemini model listing after every name fails. Its outcome, a message
  or an error, is always replaced by the "not found" error, so it has no
  effect on the result.
- The JSON grammar. `json.loads` and `Response.json()` are decoder
  functions given as inputs. Decoded numbers are integers only;
  floating-point values (for example a fractional `estimated_time`) are not
  modelled.
- HuggingFace.EstimateSeconds: a floating-point estimate is not modelled,
  because decoded numbers are integers here.
- Adapter.ReviewPrompt: the JSON-shape and focus instructions after the
  code block are abbreviated. The Hugging Face wrapper prompt is not
  modelled. The contract covers only the lead, the hint and the code.
- PyStrings.Lower: Python's Unicode case mapping is reduced to ASCII.
  `repr()` treats every non-ASCII character as printable.
- App.ReviewCode: the response model is taken as strict (a string summary,
  lists, a string or null improved code). Pydantic's coercions are not
  modelled, and the validator's error text is an input.
- HuggingFace.RetryWait: the overflow branch follows CPython 3.11 and
  3.12, where `time.sleep` converts whole seconds to signed 64-bit
  nanoseconds and raises `OverflowError` with that wording below the
  range; other interpreter versions' wording is not modelled.
- Service.HuggingFaceUndecodableBusyBody: assumes `Response.json()` raises
  a `json.JSONDecodeError` on an undecodable body, as `requests` 2.27 and
  later do when `simplejson` is not installed. With `simplejson` installed
  the error is not caught at `backend/services/code_review_service.py:71`,
  and the service answers with a 500 instead of the degraded review.
- App.MonolithHuggingFaceUndecodableBusyBody: rests on the same assumption
  about `Response.json()`; otherwise the error escapes the clause at
  `backend/main.py:397` and the monolith answers with a 502.
- Service.HuggingFaceValidationFailureClassified: does not pin the exact
  category of each status (401 as authentication, 403 and 410 as upstream
  errors, 404 as unexpected unless the model name holds a keyword). That
  needs the absence of the other rules' keywords from the long fixed
  messages, which is not proved; the lemma proves that no status but 404 is
  unexpected and that 401 lands among the first three categories.
- Json.Get: decoded objects are taken to have distinct keys
  (`Json.GetOfDistinctKeys`). For a duplicated key `json.loads` keeps the
  last value, while `Get` on a sequence with duplicates reads the first
  entry; the decoder is an input, so this is an assumption about it.
- The environment loading itself (`load_dotenv`, the import of the Gemini
  package) is an input, and so are the start-up warnings printed for a
  keyless Hugging Face configuration.
- The FastAPI plumbing: CORS, static files, the root endpoint and the
  server entry point.
- The model parameters (temperature, token limits, timeouts) are sent to
  the providers and have no effect on any decision modelled here.

=== FILE: adapter.dfy ===
/** What every provider adapter shares: the outcome of asking a provider for
    a review, and the review prompt built from the submitted code. */
module Adapter {
  import opened Wrappers
  import opened PyStrings

  /** An exception escaping an adapter. `Raise` is a plain `Exception` (or any
      error other than a JSON decode error), identified by its `str()`;
      `Undecodable` is a JSON decode error, which the callers treat apart. */
  datatype Raised = Raise(message: string) | Undecodable(detail: string)

  /** What an adapter's `analyze_code` does: return the reply text or raise. */
  type Reply = Result<string, Raised>

  /** Python truthiness of an optional string: present and non-empty. */
  predicate Truthy(language: Option<string>) {
    language.Some? && language.value != ""
  }

  /** The hint inserted after "the following code" in the prompt. */
  function LanguageHint(language: Option<string>): (r: string)
    ensures r == "" <==> !Truthy(language)
  {
    if Truthy(language) then " (Language: " + language.value + ")" else ""
  }

  /** `language or ''`: the tag written after the opening fence of the code block. */
  function LanguageTag(language: Option<string>): (r: string)
    ensures Truthy(language) ==> r == language.value
    ensures !Truthy(language) ==> r == ""
  {
    if Truthy(language) then language.value else ""
  }

  /** The fixed lead of the review prompt. */
  const PromptLead := "You are an expert code reviewer. Analyze the following code"

  /** The instructions after the code block (the requested JSON shape and the
      review focus), abbreviated. */
  const PromptInstructions :=
    "Please provide your analysis in the following JSON format: summary, issues, suggestions, improved_code. "
    + "Return ONLY valid JSON, no additional text."

  const CodeBlockOpening := " and provide a comprehensive review.\n\nCode to review:\n```"
  const CodeBlockClosing := "\n```\n\n"

  /** Everything the prompt puts before the code: the lead, the language
      hint, and the opening of a code block tagged with the language. */
  function PromptBeforeCode(language: Option<string>): (r: string)
    ensures IsPrefix(PromptLead + LanguageHint(language), r)
  {
    var head := PromptLead + LanguageHint(language);
    var r := head + (CodeBlockOpening + LanguageTag(language) + "\n");
    assert r[..|head|] == head;
    r
  }

  /** The review prompt: the code inside the fenced block, followed by the
      instructions. */
  function ReviewPrompt(code: string, language: Option<string>): string {
    PromptBeforeCode(language) + code + (CodeBlockClosing + PromptInstructions)
  }

  /** The prompt opens with the lead and the language hint, and the submitted
      code appears in it verbatim. */
  lemma PromptEmbedsCode(code: string, language: Option<string>)
    ensures IsPrefix(PromptLead + LanguageHint(language), ReviewPrompt(code, language))
    ensures Contains(ReviewPrompt(code, language), code)
  {
    var a := PromptBeforeCode(language);
    var r := ReviewPrompt(code, language);
    assert r[..|a|] == a;
    assert r[..|PromptLead + LanguageHint(language)|] == a[..|PromptLead + LanguageHint(language)|];
    ContainsPart(a, code, CodeBlockClosing + PromptInstructions);
  }

  /** The language hint appears in the prompt. */
  lemma PromptCarriesHint(code: string, language: Option<string>)
    ensures Contains(ReviewPrompt(code, language), LanguageHint(language))
  {
    var hint := LanguageHint(language);
    var head := PromptLead + hint;
    var r := ReviewPrompt(code, language);
    PromptEmbedsCode(code, language);
    assert r[|PromptLead|..|head|] == hint by {
      assert r[..|head|] == head;
      assert head[|PromptLead|..] == hint;
    }
    ContainsSelf(hint);
    ContainsOfSlice(r, |PromptLead|, |head|, hint);
  }

  /** The hint names the language exactly when one is given. */
  lemma HintNamesLanguage(language: string)
    requires language != ""
    ensures Contains(LanguageHint(Some(language)), language)
    ensures LanguageHint(Some(language)) == " (Language: " + language + ")"
  {
    ContainsPart(" (Language: ", language, ")");
  }

  /** An absent and an empty language give the same prompt. */
  lemma EmptyLanguageIsNoLanguage(code: string)
    ensures ReviewPrompt(code, Some("")) == ReviewPrompt(code, None)
  {
  }
}

=== FILE: app.dfy ===
/** The web application's own pipeline: the monolithic `analyze_code_with_ai`
    (selection per request, the same normaliser, its own exception handler)
    and the `/review_code` handler with its input checks. The provider's
    reply, the JSON decoder and the response-model validator's message are
    inputs. */
module App {
  import opened Wrappers
  import opened PyStrings
  import opened Json
  import opened Config
  import opened Errors
  import opened Classifier
  import opened Normaliser
  import opened Adapter
  import Service
  import Gemini
  import HuggingFace

  /** `analyze_code_with_ai`. An unknown provider is detected only here, per
      request, inside the guarded block, so its `ValueError` goes through the
      monolith's handler like any other failure. */
  function AnalyzeWithAi(providerId: string, reply: Reply, parse: string -> ParseResult): (r: Result<Review, HttpError>)
    ensures ParseProvider(providerId).None? ==>
      r == Failure(MonolithHandleException(Service.UnknownProviderPrefix + providerId, providerId))
    ensures r.Failure? ==> r.error.status in {402, 429, 401, 502} && r.error.detail.Payload?
    ensures ParseProvider(providerId).Some? && reply.Failure? && reply.error.Undecodable? ==>
      r == Success(Degraded(reply.error.detail))
  {
    if ParseProvider(providerId).None? then
      Failure(MonolithHandleException(Service.UnknownProviderPrefix + providerId, providerId))
    else
      match reply
      case Failure(Undecodable(detail)) => Success(Degraded(detail))
      case Failure(Raise(message)) => Failure(MonolithHandleException(message, providerId))
      case Success(content) =>
        match Normalise(content, parse)
        case Success(review) => Success(review)
        case Failure(message) => Failure(MonolithHandleException(message, providerId))
  }

  /** For a known provider the monolith and the service produce the same
      review, and the same error except that what the service reports as
      unexpected (500) the monolith reports as an upstream error (502). */
  lemma MonolithMatchesService(providerId: string, reply: Reply, parse: string -> ParseResult)
    requires ParseProvider(providerId).Some?
    ensures AnalyzeWithAi(providerId, reply, parse).Success? <==> Service.AnalyzeCode(providerId, reply, parse).Success?
    ensures Service.AnalyzeCode(providerId, reply, parse).Success? ==>
      AnalyzeWithAi(providerId, reply, parse) == Service.AnalyzeCode(providerId, reply, parse)
    ensures Service.AnalyzeCode(providerId, reply, parse).Failure? ==>
      var s := Service.AnalyzeCode(providerId, reply, parse).error.status;
      var m := AnalyzeWithAi(providerId, reply, parse).error.status;
      (s == 500 ==> m == 502) && (s != 500 ==> m == s)
  {
    var failure: Option<string> :=
      match reply
      case Failure(Raise(message)) => Some(message)
      case Failure(Undecodable(_)) => None
      case Success(content) =>
        (match Normalise(content, parse) case Failure(message) => Some(message) case Success(_) => None);
    if failure.Some? {
      MonolithAgreesWithService(failure.value);
    }
  }

  /** The unknown-provider failure never becomes a 500, whatever the reply
      would have been. */
  lemma UnknownProviderPerRequest(providerId: string, reply1: Reply, reply2: Reply, parse: string -> ParseResult)
    requires ParseProvider(providerId).None?
    ensures AnalyzeWithAi(providerId, reply1, parse) == AnalyzeWithAi(providerId, reply2, parse)
    ensures AnalyzeWithAi(providerId, reply1, parse).Failure?
    ensures AnalyzeWithAi(providerId, reply1, parse).error.status != 500
  {
  }

  /** In the monolith a Gemini generation failure, wrapped with its prefix,
      is reported as quota, rate limit, authentication or upstream error. */
  lemma MonolithGeminiFailureIsUpstream(e: string, parse: string -> ParseResult)
    ensures AnalyzeWithAi("gemini", Gemini.Generate(Failure(e)), parse).Failure?
    ensures AnalyzeWithAi("gemini", Gemini.Generate(Failure(e)), parse).error
      == MonolithHandleException(Gemini.GenerationErrorPrefix + e, "gemini")
    ensures AnalyzeWithAi("gemini", Gemini.Generate(Failure(e)), parse).error.status in {402, 429, 401, 502}
  {
  }

  /** In the monolith, as in the service, a Hugging Face 503 whose JSON body
      does not decode ends in the degraded review. */
  lemma MonolithHuggingFaceUndecodableBusyBody(
    model: string, probe: string -> HuggingFace.Probe,
    busy: HuggingFace.Response, retry: HuggingFace.Sent, parse: string -> ParseResult)
    requires busy.status == 503 && IsPrefix("application/json", busy.contentType)
    requires busy.json.ParseError?
    ensures AnalyzeWithAi("huggingface", HuggingFace.Analyze(model, probe, HuggingFace.Delivered(busy), retry).reply, parse)
      == Success(Degraded(busy.json.detail))
  {
    HuggingFace.UndecodableBusyBody(model, probe, busy, retry);
  }

  // ---------------------------------------------------------------------------
  // The /review_code handler
  // ---------------------------------------------------------------------------

  /** The request body: the code and an optional language. */
  datatype ReviewRequest = ReviewRequest(code: string, language: Option<string>)

  /** The largest accepted submission, in characters. */
  const MaxCodeLength := 10000

  const EmptyCodeMessage := "Code cannot be empty. Please provide a code snippet to review."
  const TooLongMessage := "Code snippet is too long. Maximum length is 10,000 characters."

  /** What the response model accepts: a string summary, list issues and
      suggestions, and a string or null improved code. */
  predicate Conforms(review: Review) {
    review.summary.JStr? && review.issues.JArr? && review.suggestions.JArr?
    && (review.improvedCode.JNull? || review.improvedCode.JStr?)
  }

  /** The declared type of a response-model field. */
  datatype FieldType = StrField | ListField | OptionalStrField

  /** The response model's fields as declared, in order. */
  const ResponseFields: seq<(string, FieldType)> := [
    ("summary", StrField),
    ("issues", ListField),
    ("suggestions", ListField),
    ("improved_code", OptionalStrField)
  ]

  /** Whether a decoded value passes validation as a field of type `t`. */
  predicate FitsField(t: FieldType, v: Json) {
    match t
    case StrField => v.JStr?
    case ListField => v.JArr?
    case OptionalStrField => v.JNull? || v.JStr?
  }

  /** The review's value for a field of the response model. */
  function FieldValue(review: Review, name: string): Json {
    if name == "summary" then review.summary
    else if name == "issues" then review.issues
    else if name == "suggestions" then review.suggestions
    else review.improvedCode
  }

  /** The hand-written conformance test is field-by-field validation
      against the declared response model. */
  lemma ConformsIffFieldsFit(review: Review)
    ensures Conforms(review) <==>
      forall k :: 0 <= k < |ResponseFields| ==>
        FitsField(ResponseFields[k].1, FieldValue(review, ResponseFields[k].0))
  {
    if !Conforms(review) {
      if !review.summary.JStr? {
        assert !FitsField(ResponseFields[0].1, FieldValue(review, ResponseFields[0].0));
      } else if !review.issues.JArr? {
        assert !FitsField(ResponseFields[1].1, FieldValue(review, ResponseFields[1].0));
      } else if !review.suggestions.JArr? {
        assert !FitsField(ResponseFields[2].1, FieldValue(review, ResponseFields[2].0));
      } else {
        assert !FitsField(ResponseFields[3].1, FieldValue(review, ResponseFields[3].0));
      }
    }
  }

  /** The degraded review always fits the response model. */
  lemma DegradedConforms(detail: string)
    ensures Conforms(Degraded(detail))
  {
  }

  /** A review whose summary is present but not a string does not fit the
      response model. */
  lemma NullSummaryDoesNotConform(review: Review)
    requires review.summary == JNull
    ensures !Conforms(review)
  {
  }

  /** `review_code`. The framework refuses an empty `code` before the
      handler runs (422). The handler then refuses whitespace-only code and,
      after that, code over the length limit, both with 400 and before the
      provider is consulted. Errors from the analysis pass through unchanged;
      a review the response model refuses becomes a 500 whose detail is a
      plain message, `invalid` giving the validator's text for it. */
  function ReviewCode(
    request: ReviewRequest, providerId: string, reply: Reply,
    parse: string -> ParseResult, invalid: Review -> string): (r: Result<Review, HttpError>)
    ensures request.code == "" ==> r == Failure(HttpError(422, RequestInvalid))
    ensures request.code != "" && Strip(request.code) == "" ==> r == Failure(HttpError(400, Message(EmptyCodeMessage)))
    ensures Strip(request.code) != "" && |request.code| > MaxCodeLength ==>
      r == Failure(HttpError(400, Message(TooLongMessage)))
    ensures r.Success? ==> Conforms(r.value) && r == AnalyzeWithAi(providerId, reply, parse)
    ensures Strip(request.code) != "" && |request.code| <= MaxCodeLength && AnalyzeWithAi(providerId, reply, parse).Failure? ==>
      r == AnalyzeWithAi(providerId, reply, parse)
    ensures (Strip(request.code) != "" && |request.code| <= MaxCodeLength && AnalyzeWithAi(providerId, reply, parse).Success?
             && !Conforms(AnalyzeWithAi(providerId, reply, parse).value)) ==>
      r == Failure(HttpError(500, Message(UnexpectedPrefix + invalid(AnalyzeWithAi(providerId, reply, parse).value))))
    // Valid code is served exactly when its analysis succeeds with a review
    // the response model accepts.
    ensures Strip(request.code) != "" && |request.code| <= MaxCodeLength ==>
      (r.Success? <==> AnalyzeWithAi(providerId, reply, parse).Success? && Conforms(AnalyzeWithAi(providerId, reply, parse).value))
  {
    if request.code == "" then Failure(HttpError(422, RequestInvalid))
    else if Strip(request.code) == "" then Failure(HttpError(400, Message(EmptyCodeMessage)))
    else if |request.code| > MaxCodeLength then Failure(HttpError(400, Message(TooLongMessage)))
    else
      match AnalyzeWithAi(providerId, reply, parse)
      case Failure(e) => Failure(e)
      case Success(review) =>
        if Conforms(review) then Success(review)
        else Failure(HttpError(500, Message(UnexpectedPrefix + invalid(review))))
  }

  /** Empty of whitespace-only code, and code over the limit, are refused
      whatever the provider would have answered: the provider is not
      consulted. */
  lemma InputRejectedBeforeProvider(
    request: ReviewRequest, providerId: string, reply1: Reply, reply2: Reply,
    parse1: string -> ParseResult, parse2: string -> ParseResult, invalid: Review -> string)
    requires Strip(request.code) == "" || |request.code| > MaxCodeLength
    ensures ReviewCode(request, providerId, reply1, parse1, invalid)
      == ReviewCode(request, providerId, reply2, parse2, invalid)
    ensures ReviewCode(request, providerId, reply1, parse1, invalid).Failure?
    ensures ReviewCode(request, providerId, reply1, parse1, invalid).error.status in {400, 422}
  {
  }

  /** The emptiness check comes first: long whitespace-only code gets the
      empty-code message, not the length message. */
  lemma EmptinessCheckedFirst(request: ReviewRequest, providerId: string, reply: Reply,
                              parse: string -> ParseResult, invalid: Review -> string)
    requires request.code != "" && Strip(request.code) == "" && |request.code| > MaxCodeLength
    ensures ReviewCode(request, providerId, reply, parse, invalid) == Failure(HttpError(400, Message(EmptyCodeMessage)))
  {
  }

  /** A run of one letter longer than the limit gets the length message: it
      is not blank, so the emptiness check lets it through. */
  lemma RepeatedLetterTooLong(n: nat, providerId: string, reply: Reply,
                              parse: string -> ParseResult, invalid: Review -> string)
    requires n > MaxCodeLength
    ensures ReviewCode(ReviewRequest(seq(n, _ => 'x'), None), providerId, reply, parse, invalid)
      == Failure(HttpError(400, Message(TooLongMessage)))
  {
    var code := seq(n, _ => 'x');
    StripOfVisibleEnds(code);
  }

  /** Code of exactly the maximum length is accepted and analysed: it never
      gets the length message, and the analysis's error, or its review when
      the response model accepts it, is what the client receives. */
  lemma MaximumLengthAccepted(request: ReviewRequest, providerId: string, reply: Reply,
                              parse: string -> ParseResult, invalid: Review -> string)
    requires |request.code| == MaxCodeLength && Strip(request.code) != ""
    ensures ReviewCode(request, providerId, reply, parse, invalid) != Failure(HttpError(400, Message(TooLongMessage)))
    ensures (AnalyzeWithAi(providerId, reply, parse).Failure? || Conforms(AnalyzeWithAi(providerId, reply, parse).value)) ==>
      ReviewCode(request, providerId, reply, parse, invalid) == AnalyzeWithAi(providerId, reply, parse)
  {
  }

  /** An undecodable reply from a known provider reaches the client as the
      degraded review. */
  lemma UndecodableReplyServed(request: ReviewRequest, providerId: string, detail: string,
                               parse: string -> ParseResult, invalid: Review -> string)
    requires Strip(request.code) != "" && |request.code| <= MaxCodeLength
    requires ParseProvider(providerId).Some?
    ensures ReviewCode(request, providerId, Failure(Undecodable(detail)), parse, invalid) == Success(Degraded(detail))
  {
    DegradedConforms(detail);
  }
}

=== FILE: classifier.dfy ===
/** The error classifier: a failure's message, lower-cased, is tested for
    keywords in a fixed priority order and the first rule that fires picks
    one of five categories, each surfaced as a fixed HTTP error. The older
    monolithic handler uses the same first three rules and turns everything
    else into the upstream-API error. */
module Classifier {
  import opened Wrappers
  import opened PyStrings
  import opened Config
  import opened Errors

  datatype Category =
    | QuotaExceeded
    | RateLimited
    | AuthenticationFailed
    | UpstreamApiError
    | UnexpectedFailure

  /** `any(k in text for k in words)` */
  predicate ContainsAny(text: string, words: seq<string>) {
    exists i :: 0 <= i < |words| && Contains(text, words[i])
  }

  predicate QuotaRule(t: string) { ContainsAny(t, ["quota", "billing", "exceeded"]) }
  predicate RateLimitRule(t: string) { ContainsAny(t, ["rate limit", "too many requests"]) }
  predicate AuthRule(t: string) {
    Contains(t, "authentication") || (Contains(t, "invalid") && Contains(t, "key")) || Contains(t, "unauthorized")
  }
  predicate ApiRule(t: string) { Contains(t, "api error") || Contains(t, "api") }

  /** The category of a failure message: the first rule of the priority
      table that fires on the lower-cased text, unexpected when none does. */
  function Classify(message: string): (c: Category)
    ensures c == FirstMatch(ServiceRules, Lower(message), UnexpectedFailure)
  {
    var t := Lower(message);
    ServiceRulesDecide(t);
    if QuotaRule(t) then QuotaExceeded
    else if RateLimitRule(t) then RateLimited
    else if AuthRule(t) then AuthenticationFailed
    else if ApiRule(t) then UpstreamApiError
    else UnexpectedFailure
  }

  /** The HTTP status each category is surfaced with. */
  function Status(c: Category): int {
    match c
    case QuotaExceeded => 402
    case RateLimited => 429
    case AuthenticationFailed => 401
    case UpstreamApiError => 502
    case UnexpectedFailure => 500
  }

  /** The HTTP error raised for a category. */
  function ErrorFor(c: Category, providerId: string, message: string): (e: HttpError)
    ensures e.status == Status(c)
    ensures e.detail.Payload?
    ensures c == UpstreamApiError ==> e.detail.message == message
    ensures c == UnexpectedFailure ==> e.detail.message == UnexpectedPrefix + message
  {
    match c
    case QuotaExceeded => QuotaError()
    case RateLimited => RateLimitError()
    case AuthenticationFailed => AuthError(providerId)
    case UpstreamApiError => ApiError(message)
    case UnexpectedFailure => UnexpectedError(message)
  }

  /** The service's exception handler: every failure becomes exactly one of
      the five categorised errors. */
  function HandleException(message: string, providerId: string): (e: HttpError)
    ensures e.status in {402, 429, 401, 502, 500}
    ensures e.detail.Payload?
    ensures e.status == 502 ==> e.detail.message == message
    ensures e.status == 500 ==> e.detail.message == UnexpectedPrefix + message
  {
    ErrorFor(Classify(message), providerId, message)
  }

  // ---------------------------------------------------------------------------
  // Reference definition: a priority-ordered rule table
  // ---------------------------------------------------------------------------

  /** A rule fires when, for one of its clauses, every word of the clause occurs. */
  datatype Rule = Rule(category: Category, clauses: seq<seq<string>>)

  ghost predicate AllOccur(text: string, words: seq<string>) {
    forall j :: 0 <= j < |words| ==> Occurs(text, words[j])
  }

  ghost predicate Fires(r: Rule, text: string) {
    exists i :: 0 <= i < |r.clauses| && AllOccur(text, r.clauses[i])
  }

  /** The service's rules, highest priority first. */
  const ServiceRules: seq<Rule> := [
    Rule(QuotaExceeded, [["quota"], ["billing"], ["exceeded"]]),
    Rule(RateLimited, [["rate limit"], ["too many requests"]]),
    Rule(AuthenticationFailed, [["authentication"], ["invalid", "key"], ["unauthorized"]]),
    Rule(UpstreamApiError, [["api error"], ["api"]])
  ]

  /** First-match-wins evaluation of a rule table. */
  ghost function FirstMatch(rules: seq<Rule>, text: string, fallback: Category): (c: Category)
    ensures (forall k :: 0 <= k < |rules| ==> !Fires(rules[k], text)) ==> c == fallback
    ensures forall k :: 0 <= k < |rules| && Fires(rules[k], text) && (forall j :: 0 <= j < k ==> !Fires(rules[j], text)) ==> c == rules[k].category
  {
    if |rules| == 0 then fallback
    else if Fires(rules[0], text) then rules[0].category
    else
      var c := FirstMatch(rules[1..], text, fallback);
      assert forall k :: 1 <= k < |rules| ==> rules[k] == rules[1..][k - 1];
      c
  }

  lemma OccursIffContains(t: string, w: string)
    ensures Occurs(t, w) <==> Contains(t, w)
  {
    ContainsIffOccurs(t, w);
  }

  /** `any` over three words is the disjunction of the three tests. */
  lemma ContainsAnyOfThree(t: string, a: string, b: string, c: string)
    ensures ContainsAny(t, [a, b, c]) <==> Contains(t, a) || Contains(t, b) || Contains(t, c)
  {
    var ws := [a, b, c];
    if Contains(t, a) { assert Contains(t, ws[0]); }
    if Contains(t, b) { assert Contains(t, ws[1]); }
    if Contains(t, c) { assert Contains(t, ws[2]); }
  }

  /** `any` over two words is the disjunction of the two tests. */
  lemma ContainsAnyOfTwo(t: string, a: string, b: string)
    ensures ContainsAny(t, [a, b]) <==> Contains(t, a) || Contains(t, b)
  {
    var ws := [a, b];
    if Contains(t, a) { assert Contains(t, ws[0]); }
    if Contains(t, b) { assert Contains(t, ws[1]); }
  }

  lemma QuotaRuleFires(t: string)
    ensures QuotaRule(t) <==> Fires(ServiceRules[0], t)
  {
    ContainsAnyOfThree(t, "quota", "billing", "exceeded");
    OccursIffContains(t, "quota");
    OccursIffContains(t, "billing");
    OccursIffContains(t, "exceeded");
    var r := ServiceRules[0];
    if Contains(t, "quota") {
      assert AllOccur(t, r.clauses[0]);
    } else if Contains(t, "billing") {
      assert AllOccur(t, r.clauses[1]);
    } else if Contains(t, "exceeded") {
      assert AllOccur(t, r.clauses[2]);
    }
    if Fires(r, t) {
      var i :| 0 <= i < |r.clauses| && AllOccur(t, r.clauses[i]);
      assert Occurs(t, r.clauses[i][0]);
    }
  }

  lemma RateLimitRuleFires(t: string)
    ensures RateLimitRule(t) <==> Fires(ServiceRules[1], t)
  {
    ContainsAnyOfTwo(t, "rate limit", "too many requests");
    OccursIffContains(t, "rate limit");
    OccursIffContains(t, "too many requests");
    var r := ServiceRules[1];
    if Contains(t, "rate limit") {
      assert AllOccur(t, r.clauses[0]);
    } else if Contains(t, "too many requests") {
      assert AllOccur(t, r.clauses[1]);
    }
    if Fires(r, t) {
      var i :| 0 <= i < |r.clauses| && AllOccur(t, r.clauses[i]);
      assert Occurs(t, r.clauses[i][0]);
    }
  }

  lemma AuthRuleFires(t: string)
    ensures AuthRule(t) <==> Fires(ServiceRules[2], t)
  {
    OccursIffContains(t, "authentication");
    OccursIffContains(t, "invalid");
    OccursIffContains(t, "key");
    OccursIffContains(t, "unauthorized");
    var r := ServiceRules[2];
    if Contains(t, "authentication") {
      assert AllOccur(t, r.clauses[0]);
    } else if Contains(t, "invalid") && Contains(t, "key") {
      assert AllOccur(t, r.clauses[1]);
    } else if Contains(t, "unauthorized") {
      assert AllOccur(t, r.clauses[2]);
    }
    if Fires(r, t) {
      var i :| 0 <= i < |r.clauses| && AllOccur(t, r.clauses[i]);
      assert Occurs(t, r.clauses[i][0]);
      if i == 1 {
        assert Occurs(t, r.clauses[1][1]);
      }
    }
  }

  lemma ApiRuleFires(t: string)
    ensures ApiRule(t) <==> Fires(ServiceRules[3], t)
  {
    OccursIffContains(t, "api error");
    OccursIffContains(t, "api");
    var r := ServiceRules[3];
    if Contains(t, "api error") {
      assert AllOccur(t, r.clauses[0]);
    } else if Contains(t, "api") {
      assert AllOccur(t, r.clauses[1]);
    }
    if Fires(r, t) {
      var i :| 0 <= i < |r.clauses| && AllOccur(t, r.clauses[i]);
      assert Occurs(t, r.clauses[i][0]);
    }
  }

  /** The priority table Quota > RateLimit > Auth > API, evaluated
      first-match-wins, agrees with the four keyword tests taken in order. */
  lemma ServiceRulesDecide(t: string)
    ensures FirstMatch(ServiceRules, t, UnexpectedFailure) ==
      if QuotaRule(t) then QuotaExceeded
      else if RateLimitRule(t) then RateLimited
      else if AuthRule(t) then AuthenticationFailed
      else if ApiRule(t) then UpstreamApiError
      else UnexpectedFailure
  {
    QuotaRuleFires(t);
    RateLimitRuleFires(t);
    AuthRuleFires(t);
    ApiRuleFires(t);
    var c := FirstMatch(ServiceRules, t, UnexpectedFailure);
    if Fires(ServiceRules[0], t) {
      assert c == QuotaExceeded;
    } else if Fires(ServiceRules[1], t) {
      assert c == RateLimited;
    } else if Fires(ServiceRules[2], t) {
      assert c == AuthenticationFailed;
    } else if Fires(ServiceRules[3], t) {
      assert c == UpstreamApiError;
    } else {
      assert c == UnexpectedFailure;
    }
  }

  // ---------------------------------------------------------------------------
  // Consequences of the order
  // ---------------------------------------------------------------------------

  /** Matching ignores case: two messages equal up to case classify alike. */
  lemma ClassifyIgnoresCase(a: string, b: string)
    requires Lower(a) == Lower(b)
    ensures Classify(a) == Classify(b)
  {
  }

  lemma ClassifyUpperCase(message: string)
    ensures Classify(Upper(message)) == Classify(message)
  {
    LowerOfUpper(message);
  }

  /** A message mentioning "exceeded" is always a quota failure, whatever else it says. */
  lemma ExceededIsAlwaysQuota(message: string)
    requires Contains(Lower(message), "exceeded")
    ensures Classify(message) == QuotaExceeded
  {
    assert ["quota", "billing", "exceeded"][2] == "exceeded";
  }

  /** "Rate limit exceeded" lands in Quota (HTTP 402), not RateLimit. */
  lemma RateLimitExceededIsQuota()
    ensures Classify("Rate limit exceeded") == QuotaExceeded
    ensures HandleException("Rate limit exceeded", "openai").status == 402
  {
    LowerOfLowerCase("exceeded");
    ContainsLowerOf("Rate limit ", "exceeded", "");
    assert "Rate limit " + "exceeded" + "" == "Rate limit exceeded";
    ExceededIsAlwaysQuota("Rate limit exceeded");
  }

  /** A message with both "quota" and "rate limit" is a quota failure. */
  lemma QuotaBeatsRateLimit(message: string)
    requires Contains(Lower(message), "quota") && Contains(Lower(message), "rate limit")
    ensures Classify(message) == QuotaExceeded
  {
    assert ["quota", "billing", "exceeded"][0] == "quota";
  }

  /** The "api error" test adds nothing: whatever contains it contains "api". */
  lemma ApiErrorTestSubsumed(t: string)
    ensures ApiRule(t) <==> Contains(t, "api")
  {
    if Contains(t, "api error") {
      assert IsPrefix("api", "api error"[0..]);
      ContainsTransitive(t, "api error", "api");
    }
  }

  /** A failure whose text mentions "api" is at worst an upstream error:
      it is never reported as unexpected. */
  lemma ApiMentionNeverUnexpected(message: string, providerId: string)
    requires Contains(Lower(message), "api")
    ensures Classify(message) != UnexpectedFailure
    ensures HandleException(message, providerId).status != 500
  {
    ApiErrorTestSubsumed(Lower(message));
  }

  /** The authentication rule also fires when "invalid" and "key" occur apart. */
  lemma InvalidAndKeyAnywhereIsAuth(message: string)
    requires !QuotaRule(Lower(message)) && !RateLimitRule(Lower(message))
    requires Contains(Lower(message), "invalid") && Contains(Lower(message), "key")
    ensures Classify(message) == AuthenticationFailed
    ensures HandleException(message, "groq").status == 401
  {
  }

  /** A failure is unexpected exactly when no keyword of any rule occurs. */
  lemma UnexpectedIffNoRuleFires(message: string)
    ensures Classify(message) == UnexpectedFailure <==>
      forall k :: 0 <= k < |ServiceRules| ==> !Fires(ServiceRules[k], Lower(message))
  {
    var t := Lower(message);
    QuotaRuleFires(t);
    RateLimitRuleFires(t);
    AuthRuleFires(t);
    ApiRuleFires(t);
  }

  // ---------------------------------------------------------------------------
  // The monolithic handler's variant
  // ---------------------------------------------------------------------------

  /** The monolith's classification: no "api" test and no unexpected branch;
      whatever passes the first three rules is an upstream-API error. */
  function MonolithClassify(message: string): (c: Category)
    ensures c != UnexpectedFailure
  {
    var t := Lower(message);
    if QuotaRule(t) then QuotaExceeded
    else if RateLimitRule(t) then RateLimited
    else if AuthRule(t) then AuthenticationFailed
    else UpstreamApiError
  }

  /** The two handlers agree on the first three rules; everything the service
      calls upstream or unexpected is upstream in the monolith. */
  lemma MonolithAgreesWithService(message: string)
    ensures Classify(message) in {QuotaExceeded, RateLimited, AuthenticationFailed} ==>
      MonolithClassify(message) == Classify(message)
    ensures Classify(message) in {UpstreamApiError, UnexpectedFailure} <==>
      MonolithClassify(message) == UpstreamApiError
  {
  }

  /** The monolith's exception handler. Its second `except Exception` clause
      can never be reached, so no 500 comes out of it. */
  function MonolithHandleException(message: string, providerId: string): (e: HttpError)
    ensures e.status in {402, 429, 401, 502}
    ensures e.detail.Payload?
    ensures e.status == 502 ==> e.detail.message == message
  {
    ErrorFor(MonolithClassify(message), providerId, message)
  }
}

=== FILE: config.dfy ===
/** Process-wide settings read once at start-up: which provider is active,
    each provider's credential and model name, and the start-up validation
    of that choice. Environment variables are an input (`Environment`). */
module Config {
  import opened Wrappers
  import opened PyStrings

  /** The closed set of back-ends the relay can talk to. */
  datatype Provider = OpenAI | HuggingFace | Groq | Gemini

  /** The identifier a provider is selected by. */
  function ProviderId(p: Provider): string {
    match p
    case OpenAI => "openai"
    case HuggingFace => "huggingface"
    case Groq => "groq"
    case Gemini => "gemini"
  }

  /** Lookup of an identifier in the provider table; `None` for anything else. */
  function ParseProvider(id: string): (r: Option<Provider>)
    ensures r.Some? ==> ProviderId(r.value) == id
    ensures r.None? ==> forall p :: ProviderId(p) != id
  {
    if id == "openai" then Some(OpenAI)
    else if id == "huggingface" then Some(HuggingFace)
    else if id == "groq" then Some(Groq)
    else if id == "gemini" then Some(Gemini)
    else None
  }

  /** Identifiers and providers are in one-to-one correspondence. */
  lemma ParseProviderRoundTrip(p: Provider)
    ensures ParseProvider(ProviderId(p)) == Some(p)
  {
  }

  /** Selection succeeds for exactly the four known identifiers. */
  lemma ParseProviderKnownIds(id: string)
    ensures ParseProvider(id).Some? <==> id in {"openai", "huggingface", "groq", "gemini"}
  {
  }

  /** The model used when no model variable is set. */
  function DefaultModel(p: Provider): string {
    match p
    case OpenAI => "gpt-3.5-turbo"
    case HuggingFace => "google/flan-t5-large"
    case Groq => "llama-3.1-8b-instant"
    case Gemini => "models/gemini-2.0-flash"
  }

  /** Name of the environment variable holding a provider's credential. */
  function KeyVariable(p: Provider): string {
    match p
    case OpenAI => "OPENAI_API_KEY"
    case HuggingFace => "HUGGINGFACE_API_KEY"
    case Groq => "GROQ_API_KEY"
    case Gemini => "GEMINI_API_KEY"
  }

  function ModelVariable(p: Provider): string {
    match p
    case OpenAI => "OPENAI_MODEL"
    case HuggingFace => "HUGGINGFACE_MODEL"
    case Groq => "GROQ_MODEL"
    case Gemini => "GEMINI_MODEL"
  }

  /** `os.getenv(name)`: the value of a variable, or `None` when it is unset. */
  type Environment = string -> Option<string>

  datatype Settings = Settings(
    providerId: string,
    keys: Provider -> string,
    models: Provider -> string,
    geminiAvailable: bool)

  /** Reads the settings from the environment. `geminiAvailable` says whether
      the Gemini client package could be imported. */
  function LoadSettings(env: Environment, geminiAvailable: bool): (s: Settings)
    // The identifier is kept in its normal (lower-case) form.
    ensures Lower(s.providerId) == s.providerId
    // A set identifier keeps its letters, only their case may change.
    ensures env("AI_PROVIDER").Some? ==> s.providerId == Lower(env("AI_PROVIDER").value)
    // A credential counts as missing exactly when its variable is unset or empty.
    ensures forall p :: s.keys(p) == "" <==> env(KeyVariable(p)) in {None, Some("")}
    ensures forall p :: env(KeyVariable(p)).Some? ==> s.keys(p) == env(KeyVariable(p)).value
    // An unset model variable falls back to the provider's default model.
    ensures forall p :: env(ModelVariable(p)).None? ==> s.models(p) == DefaultModel(p)
    ensures forall p :: env(ModelVariable(p)).Some? ==> s.models(p) == env(ModelVariable(p)).value
    ensures s.geminiAvailable == geminiAvailable
  {
    LowerIdempotent(env("AI_PROVIDER").GetOr("gemini"));
    Settings(
      Lower(env("AI_PROVIDER").GetOr("gemini")),
      p => env(KeyVariable(p)).GetOr(""),
      p => env(ModelVariable(p)).GetOr(DefaultModel(p)),
      geminiAvailable)
  }

  /** With `AI_PROVIDER` unset the relay uses Gemini. */
  lemma DefaultProviderIsGemini(env: Environment, geminiAvailable: bool)
    requires env("AI_PROVIDER") == None
    ensures ParseProvider(LoadSettings(env, geminiAvailable).providerId) == Some(Gemini)
  {
    LowerOfLowerCase("gemini");
  }

  /** The identifier is lower-cased on reading, so any spelling of a provider's
      name in upper, lower or mixed case selects that provider. */
  lemma SelectionIgnoresCase(env: Environment, geminiAvailable: bool, p: Provider)
    requires env("AI_PROVIDER").Some?
    requires Lower(env("AI_PROVIDER").value) == ProviderId(p)
    ensures ParseProvider(LoadSettings(env, geminiAvailable).providerId) == Some(p)
  {
  }

  /** An upper-cased identifier still selects its provider. */
  lemma SelectionOfUpperCaseId(env: Environment, geminiAvailable: bool, p: Provider)
    requires env("AI_PROVIDER") == Some(Upper(ProviderId(p)))
    ensures ParseProvider(LoadSettings(env, geminiAvailable).providerId) == Some(p)
  {
    LowerOfUpper(ProviderId(p));
    assert Lower(ProviderId(p)) == ProviderId(p);
  }

  /** Providers that refuse to start without a credential. */
  predicate NeedsKey(p: Provider) {
    p != HuggingFace
  }

  /** Why start-up validation refused the settings. */
  datatype ConfigError = MissingKey(provider: Provider) | GeminiPackageMissing

  /** The message of the `ValueError` raised for each refusal (Hugging Face
      never refuses). */
  function ConfigErrorMessage(e: ConfigError): string
    requires e != MissingKey(HuggingFace)
  {
    match e
    case MissingKey(OpenAI) => "OPENAI_API_KEY environment variable is not set when using OpenAI provider"
    case MissingKey(Groq) => "GROQ_API_KEY environment variable is not set when using Groq provider"
    case MissingKey(Gemini) => "GEMINI_API_KEY environment variable is not set when using Gemini provider"
    case GeminiPackageMissing => "google-generativeai package not installed. Run: pip install google-generativeai"
  }

  /** Start-up validation of the active provider's settings. `Success(w)`
      lets the relay start, `w` telling whether a missing-key warning was
      printed; `Failure(e)` is the `ValueError` whose message is
      `ConfigErrorMessage(e)`. The source's chain of identifier comparisons
      is the table lookup `ParseProvider`. */
  function ValidateConfiguration(s: Settings): (r: Result<bool, ConfigError>)
    // A provider that needs a credential refuses to start without it; Gemini
    // also refuses when its client package is missing.
    ensures r.Failure? <==>
      match ParseProvider(s.providerId)
      case Some(p) => (NeedsKey(p) && s.keys(p) == "") || (p == Gemini && !s.geminiAvailable)
      case None => false
    // The refusal names the active provider's credential.
    ensures r.Failure? && r.error.MissingKey? ==>
      ParseProvider(s.providerId) == Some(r.error.provider) && NeedsKey(r.error.provider)
    // The package refusal is given for Gemini without its package, and only then.
    ensures r.Failure? ==>
      (r.error == GeminiPackageMissing <==> ParseProvider(s.providerId) == Some(Gemini) && !s.geminiAvailable)
    // Hugging Face never refuses; only Hugging Face without a credential warns.
    ensures r == Success(true) <==> ParseProvider(s.providerId) == Some(HuggingFace) && s.keys(HuggingFace) == ""
    // An unknown identifier passes silently.
    ensures ParseProvider(s.providerId).None? ==> r == Success(false)
    // For Gemini the package check comes first.
    ensures ParseProvider(s.providerId) == Some(Gemini) && !s.geminiAvailable ==>
      r == Failure(GeminiPackageMissing)
  {
    match ParseProvider(s.providerId)
    case Some(HuggingFace) =>
      Success(s.keys(HuggingFace) == "")
    case Some(Gemini) =>
      if !s.geminiAvailable then Failure(GeminiPackageMissing)
      else if s.keys(Gemini) == "" then Failure(MissingKey(Gemini))
      else Success(false)
    case Some(p) =>
      if s.keys(p) == "" then Failure(MissingKey(p)) else Success(false)
    case None => Success(false)
  }
}

=== FILE: exceptions.dfy ===
/** The HTTP errors the relay surfaces, one factory per failure category, and
    the per-provider table the authentication error draws on. */
module Errors {
  import opened Wrappers
  import opened PyStrings
  import opened Config

  /** The `detail` of an `HTTPException`: a JSON object with the text fields
      error, message and help (and docs when `docs` is present), a plain
      message, or the framework's own request-validation report. */
  datatype Detail =
    | Payload(error: string, message: string, help: string, docs: Option<string>)
    | Message(text: string)
    | RequestInvalid

  datatype HttpError = HttpError(status: int, detail: Detail)

  // The fixed texts of the payloads.
  const QuotaTitle := "OpenAI API Quota Exceeded"
  const QuotaMessage := "You have exceeded your OpenAI API quota. Please check your plan and billing details."
  const QuotaHelp := "Visit https://platform.openai.com/account/billing to add credits or upgrade your plan."
  const QuotaDocs := "https://platform.openai.com/docs/guides/error-codes/api-errors"
  const RateLimitTitle := "Rate Limit Exceeded"
  const RateLimitMessage := "Too many requests. Please wait a moment and try again."
  const RateLimitHelp := "The API has rate limits. Please wait before making another request."
  const ApiTitle := "OpenAI API Error"
  const ApiHelp := "There was an issue with the OpenAI API. Please try again later."
  const UnexpectedTitle := "Unexpected Error"
  const UnexpectedPrefix := "An unexpected error occurred: "
  const UnexpectedHelp := "Please check the server logs for more details."
  const AuthTitleSuffix := " API Authentication Failed"
  const AuthHelpPrefix := "Get your API key from "

  /** Quota or billing exhausted: 402 with error, message, help and docs. */
  function QuotaError(): (e: HttpError)
    ensures e.status == 402
    ensures e.detail.Payload? && e.detail.docs.Some?
  {
    HttpError(402, Payload(QuotaTitle, QuotaMessage, QuotaHelp, Some(QuotaDocs)))
  }

  /** Too many requests: 429 with error, message and help, and no docs link. */
  function RateLimitError(): (e: HttpError)
    ensures e.status == 429
    ensures e.detail.Payload? && e.detail.docs.None?
  {
    HttpError(429, Payload(RateLimitTitle, RateLimitMessage, RateLimitHelp, None))
  }

  /** Display name, credential variable and key-issuance page of a provider. */
  datatype ProviderInfo = ProviderInfo(name: string, keyVariable: string, helpUrl: string)

  /** The provider table of the authentication error, looked up by the active
      provider identifier; any identifier outside the table gets a
      placeholder entry. */
  function AuthInfo(providerId: string): (r: ProviderInfo)
    ensures ParseProvider(providerId).Some? ==> r.keyVariable == KeyVariable(ParseProvider(providerId).value)
    ensures ParseProvider(providerId).None? ==> r == ProviderInfo("Unknown", "API_KEY", "")
    ensures r.name == "Unknown" <==> ParseProvider(providerId).None?
  {
    match ParseProvider(providerId)
    case Some(OpenAI) => ProviderInfo("OpenAI", "OPENAI_API_KEY", "https://platform.openai.com/api-keys")
    case Some(HuggingFace) =>
      ProviderInfo("Hugging Face", "HUGGINGFACE_API_KEY", "https://huggingface.co/settings/tokens")
    case Some(Groq) => ProviderInfo("Groq", "GROQ_API_KEY", "https://console.groq.com/keys")
    case Some(Gemini) =>
      ProviderInfo("Google Gemini", "GEMINI_API_KEY", "https://makersuite.google.com/app/apikey")
    case None => ProviderInfo("Unknown", "API_KEY", "")
  }

  /** Credential rejected: 401 naming the provider, the variable to fix and
      where to get a key. */
  function AuthError(providerId: string): (e: HttpError)
    ensures e.status == 401
    ensures e.detail.Payload? && e.detail.docs.None?
    ensures e.detail.error == AuthInfo(providerId).name + AuthTitleSuffix
    ensures Contains(e.detail.message, AuthInfo(providerId).keyVariable)
    ensures e.detail.help == AuthHelpPrefix + AuthInfo(providerId).helpUrl
  {
    var info := AuthInfo(providerId);
    var message := "Invalid API key. Please check your " + info.keyVariable + " in the backend/.env file.";
    assert Contains(message, info.keyVariable) by {
      ContainsSelf(info.keyVariable);
      ContainsInContext("Invalid API key. Please check your ", info.keyVariable, " in the backend/.env file.", info.keyVariable);
    }
    HttpError(401, Payload(
      info.name + AuthTitleSuffix,
      message,
      AuthHelpPrefix + info.helpUrl,
      None))
  }

  /** Any other upstream failure: 502 carrying the failure's text verbatim. */
  function ApiError(message: string): (e: HttpError)
    ensures e.status == 502
    ensures e.detail.Payload? && e.detail.docs.None?
    ensures e.detail.message == message
  {
    HttpError(502, Payload(ApiTitle, message, ApiHelp, None))
  }

  /** Anything unrecognised: 500 whose message quotes the failure after a fixed prefix. */
  function UnexpectedError(message: string): (e: HttpError)
    ensures e.status == 500
    ensures e.detail.Payload? && e.detail.docs.None?
    ensures e.detail.message == UnexpectedPrefix + message
  {
    HttpError(500, Payload(UnexpectedTitle, UnexpectedPrefix + message, UnexpectedHelp, None))
  }

  /** The authentication error names the same credential variable that the
      configuration reads for that provider. */
  lemma AuthErrorNamesConfiguredKey(p: Provider)
    ensures Contains(AuthError(ProviderId(p)).detail.message, KeyVariable(p))
  {
    ParseProviderRoundTrip(p);
  }

  /** An unknown provider gets the placeholder name and an empty help link. */
  lemma AuthErrorUnknownProvider(providerId: string)
    requires ParseProvider(providerId).None?
    ensures AuthError(providerId).detail.error == "Unknown" + AuthTitleSuffix
    ensures AuthError(providerId).detail.help == AuthHelpPrefix
  {
    assert AuthHelpPrefix + "" == AuthHelpPrefix;
  }
}

=== FILE: gemini.dfy ===
/** The decisions of the Gemini adapter: the order in which model names are
    tried, the first one that initialises, the error when none does, and the
    wrapping of generation failures. Model construction and generation are
    inputs. */
module Gemini {
  import opened Wrappers
  import opened PyStrings
  import opened Adapter
  import opened Classifier

  /** The built-in model names, in order of preference. */
  const Fallbacks: seq<string> :=
    ["models/gemini-2.0-flash", "models/gemini-2.5-flash", "models/gemini-2.5-pro", "models/gemini-2.0-flash-exp"]

  predicate NoDuplicates(s: seq<string>) {
    forall i, j :: 0 <= i < j < |s| ==> s[i] != s[j]
  }

  lemma FallbacksDistinct()
    ensures NoDuplicates(Fallbacks)
  {
    var f := Fallbacks;
    assert |f[0]| == 23 && |f[1]| == 23 && |f[2]| == 21 && |f[3]| == 27;
    assert f[0][16] == '0' && f[1][16] == '5';
  }

  /** `r` is `s` with its first `x` taken out and the rest in order. */
  ghost predicate DropsFirst(s: seq<string>, x: string, r: seq<string>) {
    exists i :: 0 <= i < |s| && s[i] == x && x !in s[..i] && r == s[..i] + s[i + 1..]
  }

  lemma DropsFirstAtHead(s: seq<string>, x: string)
    requires |s| > 0 && s[0] == x
    ensures DropsFirst(s, x, s[1..])
  {
    assert s[..0] + s[1..] == s[1..];
  }

  lemma DropsFirstPastHead(s: seq<string>, x: string, t: seq<string>)
    requires |s| > 0 && s[0] != x && DropsFirst(s[1..], x, t)
    ensures DropsFirst(s, x, [s[0]] + t)
  {
    var i :| 0 <= i < |s[1..]| && s[1..][i] == x && x !in s[1..][..i] && t == s[1..][..i] + s[1..][i + 1..];
    var j := i + 1;
    assert s[..j] == [s[0]] + s[1..][..i];
    assert s[j + 1..] == s[1..][i + 1..];
    assert [s[0]] + t == s[..j] + s[j + 1..];
    assert s[j] == x && x !in s[..j];
  }

  /** `s.remove(x)`: drops the first occurrence (the caller checks `x in s`)
      and keeps everything else in order. */
  function RemoveFirst(s: seq<string>, x: string): (r: seq<string>)
    requires x in s
    ensures |r| == |s| - 1
    ensures DropsFirst(s, x, r)
  {
    if s[0] == x then
      DropsFirstAtHead(s, x);
      s[1..]
    else
      assert x in s[1..] by {
        var k :| 0 <= k < |s| && s[k] == x;
        assert s[1..][k - 1] == x;
      }
      var t := RemoveFirst(s[1..], x);
      DropsFirstPastHead(s, x, t);
      [s[0]] + t
  }

  /** `s` with every occurrence of `x` filtered out, order kept. */
  function Without(s: seq<string>, x: string): (r: seq<string>)
    ensures forall y :: y in r <==> y in s && y != x
  {
    if |s| == 0 then [] else (if s[0] == x then [] else [s[0]]) + Without(s[1..], x)
  }

  lemma {:induction false} WithoutAbsent(s: seq<string>, x: string)
    requires x !in s
    ensures Without(s, x) == s
  {
    if |s| > 0 {
      WithoutAbsent(s[1..], x);
      assert [s[0]] + s[1..] == s;
    }
  }

  lemma {:induction false} WithoutKeepsDistinct(s: seq<string>, x: string)
    requires NoDuplicates(s)
    ensures NoDuplicates(Without(s, x))
  {
    if |s| > 0 {
      assert NoDuplicates(s[1..]) by {
        forall i, j | 0 <= i < j < |s[1..]| ensures s[1..][i] != s[1..][j] {
          assert s[1..][i] == s[i + 1] && s[1..][j] == s[j + 1];
        }
      }
      WithoutKeepsDistinct(s[1..], x);
      assert s[0] !in s[1..] by {
        forall k | 0 <= k < |s[1..]| ensures s[1..][k] != s[0] {
          assert s[1..][k] == s[k + 1];
        }
      }
    }
  }

  /** On a list without duplicates, `remove` is the filter. */
  lemma {:induction false} RemoveFirstIsWithout(s: seq<string>, x: string)
    requires NoDuplicates(s) && x in s
    ensures RemoveFirst(s, x) == Without(s, x)
  {
    assert NoDuplicates(s[1..]) by {
      forall i, j | 0 <= i < j < |s[1..]| ensures s[1..][i] != s[1..][j] {
        assert s[1..][i] == s[i + 1] && s[1..][j] == s[j + 1];
      }
    }
    if s[0] == x {
      assert x !in s[1..] by {
        forall k | 0 <= k < |s[1..]| ensures s[1..][k] != x {
          assert s[1..][k] == s[k + 1];
        }
      }
      WithoutAbsent(s[1..], x);
    } else {
      assert x in s[1..] by {
        var k :| 0 <= k < |s| && s[k] == x;
        assert k > 0 && s[1..][k - 1] == x;
      }
      RemoveFirstIsWithout(s[1..], x);
    }
  }

  /** The names tried, in order: the configured name first when it is set,
      then the built-in names without it. */
  function TryList(configured: string): (r: seq<string>)
    ensures configured == "" ==> r == Fallbacks
    ensures configured != "" ==> |r| > 0 && r[0] == configured && r[1..] == Without(Fallbacks, configured)
    ensures NoDuplicates(r)
    ensures |r| == if configured == "" || configured in Fallbacks then 4 else 5
    ensures forall y :: y in r <==> y in Fallbacks || (y == configured && configured != "")
  {
    FallbacksDistinct();
    if configured != "" && configured !in Fallbacks then
      WithoutAbsent(Fallbacks, configured);
      [configured] + Fallbacks
    else if configured in Fallbacks then
      RemoveFirstIsWithout(Fallbacks, configured);
      WithoutKeepsDistinct(Fallbacks, configured);
      [configured] + RemoveFirst(Fallbacks, configured)
    else
      Fallbacks
  }

  /** Constructing a model object under a name: it works or raises. */
  datatype Build = Built | BuildFailed(error: string)

  /** Index of the first name at or after `from` whose construction works. */
  function FirstBuilt(names: seq<string>, build: string -> Build, from: nat): (r: Option<nat>)
    requires from <= |names|
    ensures r.Some? ==> from <= r.value < |names| && build(names[r.value]).Built?
    ensures r.Some? ==> forall j :: from <= j < r.value ==> build(names[j]).BuildFailed?
    ensures r.None? ==> forall j :: from <= j < |names| ==> build(names[j]).BuildFailed?
    decreases |names| - from
  {
    if from == |names| then None
    else if build(names[from]).Built? then Some(from)
    else FirstBuilt(names, build, from + 1)
  }

  /** The initialised adapter: the model in use and how many names were
      tried; or the error raised when no name works. */
  datatype Init = Ready(model: string, attempts: nat) | NotFound(message: string)

  function NotFoundMessage(configured: string, lastError: string): string {
    "Gemini model '" + configured + "' not found. Error: " + lastError + ". Try: models/gemini-2.0-flash"
  }

  /** `_initialize_model`. The names are tried in order and the first that
      constructs is used; later names are never tried. When all fail, the
      listing of available models runs, but whatever it yields (a list, or
      an error) is discarded by the enclosing handler, so the error always
      quotes the configured name and the last construction error. */
  function InitModel(configured: string, build: string -> Build): (r: Init)
    ensures r.Ready? ==>
      && 1 <= r.attempts <= |TryList(configured)|
      && r.model == TryList(configured)[r.attempts - 1]
      && build(r.model).Built?
      && forall j :: 0 <= j < r.attempts - 1 ==> build(TryList(configured)[j]).BuildFailed?
    ensures r.NotFound? <==> forall y :: y in TryList(configured) ==> build(y).BuildFailed?
    ensures r.NotFound? ==>
      r.message == NotFoundMessage(configured, build(TryList(configured)[|TryList(configured)| - 1]).error)
  {
    var names := TryList(configured);
    match FirstBuilt(names, build, 0)
    case Some(i) => Ready(names[i], i + 1)
    case None => NotFound(NotFoundMessage(configured, build(names[|names| - 1]).error))
  }

  /** A configured name that constructs is used at the first attempt. */
  lemma ConfiguredNameFirst(configured: string, build: string -> Build)
    requires configured != "" && build(configured).Built?
    ensures InitModel(configured, build) == Ready(configured, 1)
  {
  }

  /** With no name configured, the first built-in name that constructs is used. */
  lemma UnsetNameUsesFallbacks(build: string -> Build)
    requires build(Fallbacks[0]).Built?
    ensures InitModel("", build) == Ready("models/gemini-2.0-flash", 1)
  {
  }

  const GenerationErrorPrefix := "Gemini API error: "

  /** `analyze_code` once initialised: the generated text with surrounding
      whitespace trimmed, or the generation failure re-raised with a prefix
      that names the API and keeps the original message. */
  function Generate(generated: Result<string, string>): (r: Reply)
    ensures r.Success? <==> generated.Success?
    ensures r.Success? ==> TrimmedOf(r.value, generated.value, Whitespace)
    ensures r.Success? ==> r.value == [] || (r.value[0] !in Whitespace && r.value[|r.value| - 1] !in Whitespace)
    ensures r.Failure? ==> r.error.Raise? && IsPrefix(GenerationErrorPrefix, r.error.message)
    ensures r.Failure? ==> r.error.message[|GenerationErrorPrefix|..] == generated.error
    ensures r.Failure? ==> Contains(Lower(r.error.message), "api")
  {
    match generated
    case Success(text) =>
      StripCharsTrims(text, Whitespace);
      Success(Strip(text))
    case Failure(e) =>
      PrefixMentionsApi();
      ContainsLowerOfPrefix(GenerationErrorPrefix, e, "api");
      Failure(Raise(GenerationErrorPrefix + e))
  }

  /** The lower-cased prefix mentions "api". */
  lemma PrefixMentionsApi()
    ensures Contains(Lower(GenerationErrorPrefix), "api")
  {
    assert Lower(GenerationErrorPrefix) == "gemini " + "api" + " error: ";
    ContainsPart("gemini ", "api", " error: ");
  }

  /** A generation failure is never reported as unexpected: the prefix
      contains "api", so at worst it is an upstream API error. */
  lemma GenerationFailureNeverUnexpected(e: string, providerId: string)
    ensures Classify(GenerationErrorPrefix + e) != UnexpectedFailure
    ensures HandleException(GenerationErrorPrefix + e, providerId).status != 500
  {
    PrefixMentionsApi();
    ContainsLowerOfPrefix(GenerationErrorPrefix, e, "api");
    ApiMentionNeverUnexpected(GenerationErrorPrefix + e, providerId);
  }
}

=== FILE: huggingface.dfy ===
/** The decisions of the Hugging Face adapter, with every HTTP exchange an
    input: which endpoint to use, whether and how long to wait before the
    single retry, which status codes are errors and with what message, and
    how the generated text is dug out of the reply. */
module HuggingFace {
  import opened Wrappers
  import opened PyStrings
  import opened Json
  import opened Adapter

  // ---------------------------------------------------------------------------
  // Headers and endpoints
  // ---------------------------------------------------------------------------

  type Header = (string, string)

  const ContentTypeHeader: Header := ("Content-Type", "application/json")

  ghost predicate HasHeader(headers: seq<Header>, name: string) {
    exists i :: 0 <= i < |headers| && headers[i].0 == name
  }

  /** The request headers: always the JSON content type, and a bearer token
      only when a key is configured (the public API is used otherwise). */
  function Headers(apiKey: string): (r: seq<Header>)
    ensures HasHeader(r, "Authorization") <==> apiKey != ""
    ensures apiKey != "" ==> ("Authorization", "Bearer " + apiKey) in r
    ensures ContentTypeHeader in r
  {
    if apiKey != "" then
      var r := [ContentTypeHeader, ("Authorization", "Bearer " + apiKey)];
      assert r[1].0 == "Authorization";
      r
    else
      assert ContentTypeHeader.0 != "Authorization" by { assert ContentTypeHeader.0[0] != 'A'; }
      [ContentTypeHeader]
  }

  const RouterBase := "https://router.huggingface.co/hf-inference/models/"
  const LegacyBase := "https://api-inference.huggingface.co/models/"

  /** The two endpoints tried, newest first: the router, then the legacy
      inference host, each followed by the model name. */
  function Candidates(model: string): (r: seq<string>)
    ensures |r| == 2
    ensures IsPrefix(RouterBase, r[0]) && r[0][|RouterBase|..] == model
    ensures IsPrefix(LegacyBase, r[1]) && r[1][|LegacyBase|..] == model
    ensures r[0] != r[1]
  {
    assert (RouterBase + model)[8] != (LegacyBase + model)[8];
    [RouterBase + model, LegacyBase + model]
  }

  /** The outcome of a probe request: it raised, or it came back with a status. */
  datatype Probe = ProbeFailed | ProbeAnswered(status: int)

  /** A probed endpoint is kept unless the probe raised or answered 404 or 410. */
  predicate Usable(p: Probe) {
    p.ProbeAnswered? && p.status != 404 && p.status != 410
  }

  /** Index of the first usable endpoint at or after `from`, probing in order. */
  function FirstUsable(urls: seq<string>, probe: string -> Probe, from: nat): (r: Option<nat>)
    requires from <= |urls|
    ensures r.Some? ==> from <= r.value < |urls| && Usable(probe(urls[r.value]))
    ensures r.Some? ==> forall j :: from <= j < r.value ==> !Usable(probe(urls[j]))
    ensures r.None? ==> forall j :: from <= j < |urls| ==> !Usable(probe(urls[j]))
    decreases |urls| - from
  {
    if from == |urls| then None
    else if Usable(probe(urls[from])) then Some(from)
    else FirstUsable(urls, probe, from + 1)
  }

  /** The endpoint used: the first candidate whose probe is usable, or the
      first candidate when none is (its own request then reports the error).
      `probe` gives the outcome of probing each URL. */
  function FindWorkingEndpoint(model: string, probe: string -> Probe): (r: string)
    ensures r in Candidates(model)
    ensures Usable(probe(Candidates(model)[0])) ==> r == Candidates(model)[0]
    ensures !Usable(probe(Candidates(model)[0])) && Usable(probe(Candidates(model)[1])) ==>
      r == Candidates(model)[1]
    ensures !Usable(probe(Candidates(model)[0])) && !Usable(probe(Candidates(model)[1])) ==>
      r == Candidates(model)[0]
  {
    var urls := Candidates(model);
    match FirstUsable(urls, probe, 0)
    case Some(i) => urls[i]
    case None => urls[0]
  }

  // ---------------------------------------------------------------------------
  // Responses, the wait and the retry
  // ---------------------------------------------------------------------------

  /** An HTTP response: status, `Content-Type` header ("" when absent), body
      text, and the outcome of decoding the body as JSON. */
  datatype Response = Response(status: int, contentType: string, text: string, json: ParseResult)

  /** A request either delivers a response or fails in transport
      (`RequestException`, with its message). */
  datatype Sent = Delivered(response: Response) | ConnectFailed(reason: string)

  const ConnectPrefix := "Failed to connect to Hugging Face API: "
  const RetryConnectPrefix := "Failed to connect to Hugging Face API after retry: "

  /** The response of a real request, or the exception its transport failure
      is re-raised as. The re-raised message quotes the transport's reason
      and names the API, so the service never reports it as unexpected. */
  function Receive(sent: Sent, isRetry: bool): (r: Result<Response, Raised>)
    ensures r.Success? <==> sent.Delivered?
    ensures r.Success? ==> r.value == sent.response
    ensures r.Failure? ==> r.error.Raise? && Contains(r.error.message, sent.reason)
    ensures r.Failure? ==> Contains(Lower(r.error.message), "api")
    ensures r.Failure? ==> IsPrefix(if isRetry then RetryConnectPrefix else ConnectPrefix, r.error.message)
  {
    match sent
    case Delivered(response) => Success(response)
    case ConnectFailed(reason) =>
      var prefix := if isRetry then RetryConnectPrefix else ConnectPrefix;
      ConnectPrefixMentionsApi(prefix, reason);
      ContainsPart(prefix, reason, "");
      assert prefix + reason + "" == prefix + reason;
      Failure(Raise(prefix + reason))
  }

  /** Both connection prefixes name the API, whatever reason follows them. */
  lemma ConnectPrefixMentionsApi(prefix: string, reason: string)
    requires prefix in {ConnectPrefix, RetryConnectPrefix}
    ensures Contains(Lower(prefix + reason), "api")
  {
    var after := if prefix == ConnectPrefix then ": " else " after retry: ";
    assert prefix == "Failed to connect to Hugging Face " + "API" + after;
    assert Lower("API") == "api";
    ContainsLowerOf("Failed to connect to Hugging Face ", "API", after);
    ContainsLowerOfPrefix(prefix, reason, "api");
  }

  const DefaultEstimate := 15
  const MaxWait := 30

  /** `min(estimated_time + 5, 30)` */
  function WaitFor(estimate: int): (w: int)
    ensures w <= MaxWait && w <= estimate + 5
    ensures w == MaxWait || w == estimate + 5
  {
    if estimate + 5 < MaxWait then estimate + 5 else MaxWait
  }

  /** The estimate as a number for `estimated_time + 5`: a boolean counts as
      0 or 1; other non-numbers raise `TypeError` with Python's message. */
  function EstimateSeconds(v: Json): (r: Result<int, string>)
    ensures v.JInt? ==> r == Success(v.i)
    ensures v.JBool? ==> r == Success(if v.b then 1 else 0)
    ensures r.Success? <==> v.JInt? || v.JBool?
  {
    match v
    case JInt(i) => Success(i)
    case JBool(b) => Success(if b then 1 else 0)
    case JStr(_) => Failure("can only concatenate str (not \"int\") to str")
    case JArr(_) => Failure("can only concatenate list (not \"int\") to list")
    case JNull => Failure("unsupported operand type(s) for +: 'NoneType' and 'int'")
    case JObj(_) => Failure("unsupported operand type(s) for +: 'dict' and 'int'")
  }

  const NegativeSleep := "sleep length must be non-negative"

  /** `time.sleep` converts its argument to signed 64-bit nanoseconds
      first; a number of seconds below this bound does not fit and raises
      `OverflowError` before the sign is checked. */
  const SleepLowerBound := -9223372036
  const SleepOverflow := "timestamp too large to convert to C _PyTime_t"

  /** The seconds slept before the retry after a 503. The body is decoded
      only when the content type announces JSON; a decode failure escapes as
      a JSON decode error, a decoded non-object has no `.get`, and a negative
      wait makes `sleep` raise (`OverflowError` when it is too large to
      convert, `ValueError` otherwise). */
  function RetryWait(response: Response): (r: Result<nat, Raised>)
    ensures r.Success? ==> r.value <= MaxWait
    ensures !IsPrefix("application/json", response.contentType) ==> r == Success(20)
    ensures IsPrefix("application/json", response.contentType) && response.json.ParseError? ==>
      r == Failure(Undecodable(response.json.detail))
    ensures (IsPrefix("application/json", response.contentType) && response.json.Parsed? &&
             response.json.value.JObj? && !HasKey(response.json.value.fields, "estimated_time")) ==>
      r == Success(20)
    ensures (IsPrefix("application/json", response.contentType) && response.json.Parsed? &&
             response.json.value.JObj? && HasKey(response.json.value.fields, "estimated_time") &&
             EstimateSeconds(Get(response.json.value.fields, "estimated_time").value).Failure?) ==>
      r == Failure(Raise(EstimateSeconds(Get(response.json.value.fields, "estimated_time").value).error))
    ensures (IsPrefix("application/json", response.contentType) && response.json.Parsed? &&
             !response.json.value.JObj?) ==>
      r == Failure(Raise(NoAttribute(response.json.value, "get")))
  {
    var info :=
      if IsPrefix("application/json", response.contentType) then response.json else Parsed(JObj([]));
    match info
    case ParseError(detail) => Failure(Undecodable(detail))
    case Parsed(JObj(fields)) =>
      var estimate := Get(fields, "estimated_time").GetOr(JInt(DefaultEstimate));
      (match EstimateSeconds(estimate)
       case Failure(e) => Failure(Raise(e))
       case Success(t) =>
         if WaitFor(t) < SleepLowerBound then Failure(Raise(SleepOverflow))
         else if WaitFor(t) < 0 then Failure(Raise(NegativeSleep))
         else Success(WaitFor(t)))
    case Parsed(other) => Failure(Raise(NoAttribute(other, "get")))
  }

  /** Without an estimate the wait is 20 seconds; it never exceeds 30. */
  lemma WaitBounds(estimate: int)
    ensures WaitFor(DefaultEstimate) == 20
    ensures WaitFor(estimate) <= 30
    ensures estimate >= 25 ==> WaitFor(estimate) == 30
  {
  }

  /** A JSON 503 body carrying an integer estimate waits `WaitFor` of it,
      unless that is negative. */
  lemma RetryWaitUsesEstimate(response: Response, fields: seq<(string, Json)>, t: int)
    requires IsPrefix("application/json", response.contentType)
    requires response.json == Parsed(JObj(fields))
    requires Get(fields, "estimated_time") == Some(JInt(t))
    ensures WaitFor(t) >= 0 ==> RetryWait(response) == Success(WaitFor(t))
    ensures SleepLowerBound <= WaitFor(t) < 0 ==> RetryWait(response) == Failure(Raise(NegativeSleep))
    ensures WaitFor(t) < SleepLowerBound ==> RetryWait(response) == Failure(Raise(SleepOverflow))
  {
  }

  // ---------------------------------------------------------------------------
  // Validation
  // ---------------------------------------------------------------------------

  // The fixed messages are written with the words the error classifier
  // looks for ("authentication", "API") as separate pieces.
  const AuthFailedMessage :=
    "Hugging Face " + "authentication" + " failed. Check HUGGINGFACE_API_KEY. "
    + "Get token: https://huggingface.co/settings/tokens"
  const PermissionMessage :=
    "Hugging Face permission error: Token needs 'Inference " + "API" + "' permission. "
    + "Update at: https://huggingface.co/settings/tokens"
  const DeprecatedMessage :=
    "Hugging Face endpoint deprecated for this model. The code will try a simpler model. "
    + "If this persists, Hugging Face " + "API" + " may be temporarily unavailable. "
    + "You can try again later or use OpenAI if you have credits."
  const StatusPrefix := "Hugging Face " + "API" + " error (Status "

  function ModelNotFoundMessage(model: string): string {
    "Model '" + model + "' not found. Update HUGGINGFACE_MODEL in backend/.env. Try: 'mistralai/Mistral-7B-Instruct-v0.1'"
  }

  /** The error text quoted for an unexpected status: the body's "error"
      entry when the body is a JSON object that has one, the `str()` of the
      decoded body otherwise, and the raw text when it does not decode. */
  function ErrorText(response: Response): (r: string)
    ensures response.json.ParseError? ==> r == response.text
    ensures response.json.Parsed? && response.json.value.JObj? && HasKey(response.json.value.fields, "error") ==>
      r == PyStr(Get(response.json.value.fields, "error").value)
    ensures (response.json.Parsed? &&
             !(response.json.value.JObj? && HasKey(response.json.value.fields, "error"))) ==>
      r == PyStr(response.json.value)
  {
    match response.json
    case ParseError(_) => response.text
    case Parsed(JObj(fields)) => PyStr(Get(fields, "error").GetOr(JStr(PyStr(JObj(fields)))))
    case Parsed(other) => PyStr(other)
  }

  /** The exception raised for a response that is not a success, if any. */
  function ValidationError(response: Response, model: string): (r: Option<string>)
    ensures r.None? <==> response.status == 200
    ensures response.status == 401 ==> r == Some(AuthFailedMessage)
    ensures response.status == 403 ==> r == Some(PermissionMessage)
    ensures response.status == 404 ==> r == Some(ModelNotFoundMessage(model))
    ensures response.status == 410 ==> r == Some(DeprecatedMessage)
    ensures response.status !in {200, 401, 403, 404, 410} ==>
      r == Some(StatusPrefix + IntToString(response.status) + "): " + ErrorText(response))
  {
    if response.status == 200 then None
    else if response.status == 401 then Some(AuthFailedMessage)
    else if response.status == 403 then Some(PermissionMessage)
    else if response.status == 404 then Some(ModelNotFoundMessage(model))
    else if response.status == 410 then Some(DeprecatedMessage)
    else Some(StatusPrefix + IntToString(response.status) + "): " + ErrorText(response))
  }

  /** Every validation failure but the missing model names the API, and the
      401 failure names authentication: the words the error classifier
      reads. */
  lemma ValidationErrorKeywords(response: Response, model: string)
    requires response.status != 200 && response.status != 404
    ensures response.status == 401 ==> Contains(Lower(ValidationError(response, model).value), "authentication")
    ensures response.status != 401 ==> Contains(Lower(ValidationError(response, model).value), "api")
  {
    assert Lower("API") == "api";
    if response.status == 401 {
      LowerOfLowerCase("authentication");
      ContainsLowerWithin("Hugging Face ", "authentication", " failed. Check HUGGINGFACE_API_KEY. ",
                          "Get token: https://huggingface.co/settings/tokens");
    } else if response.status == 403 {
      ContainsLowerWithin("Hugging Face permission error: Token needs 'Inference ", "API", "' permission. ",
                          "Update at: https://huggingface.co/settings/tokens");
    } else if response.status == 410 {
      ContainsLowerWithin(
        "Hugging Face endpoint deprecated for this model. The code will try a simpler model. "
        + "If this persists, Hugging Face ", "API", " may be temporarily unavailable. ",
        "You can try again later or use OpenAI if you have credits.");
    } else {
      StatusMessageMentionsApi(response.status, ErrorText(response));
    }
  }

  /** The generic rejection message names the API whatever the body says. */
  lemma StatusMessageMentionsApi(status: int, text: string)
    ensures Contains(Lower(StatusPrefix + IntToString(status) + "): " + text), "api")
  {
    var rest := IntToString(status) + "): " + text;
    assert Lower("API") == "api";
    ContainsLowerOf("Hugging Face ", "API", " error (Status ");
    ContainsLowerOfPrefix(StatusPrefix, rest, "api");
    assert StatusPrefix + IntToString(status) + "): " + text == StatusPrefix + rest;
  }

  // ---------------------------------------------------------------------------
  // Extraction
  // ---------------------------------------------------------------------------

  /** The marker before the assistant's turn in chat-formatted output. */
  const Delimiter := "<|start_header_id|>assistant<|end_header_id|>"

  const InvalidJsonPrefix := "Invalid JSON response from Hugging Face API: "
  const UnexpectedFormatPrefix := "Unexpected response format: "
  const EmptyResponsePrefix := "Empty response from Hugging Face API: "

  /** `d.get("generated_text", "")` on a value that must have `.get`. */
  function GeneratedOf(v: Json): (r: Result<Json, Raised>)
    ensures v.JObj? && HasKey(v.fields, "generated_text") ==> r == Success(Get(v.fields, "generated_text").value)
    ensures v.JObj? && !HasKey(v.fields, "generated_text") ==> r == Success(JStr(""))
    ensures !v.JObj? ==> r == Failure(Raise(NoAttribute(v, "get")))
  {
    match v
    case JObj(fields) => Success(Get(fields, "generated_text").GetOr(JStr("")))
    case _ => Failure(Raise(NoAttribute(v, "get")))
  }

  /** The generated-text value by shape of the decoded reply: the first
      element of a non-empty list; the object's own entry; or the entry of the
      object that is the first value of a non-empty object. Anything else,
      including an empty list or object, is an unexpected format. */
  function GeneratedValue(result: Json): (r: Result<Json, Raised>)
    ensures result.JArr? && |result.items| > 0 ==> r == GeneratedOf(result.items[0])
    ensures result.JObj? && HasKey(result.fields, "generated_text") ==>
      r == Success(Get(result.fields, "generated_text").value)
    ensures (result.JObj? && !HasKey(result.fields, "generated_text") && |result.fields| > 0
             && result.fields[0].1.JObj?) ==> r == GeneratedOf(result.fields[0].1)
    ensures (!(result.JArr? && |result.items| > 0)
             && !(result.JObj? && (HasKey(result.fields, "generated_text")
                                   || (|result.fields| > 0 && result.fields[0].1.JObj?)))) ==>
      r == Failure(Raise(UnexpectedFormatPrefix + PyStr(result)))
  {
    match result
    case JArr(items) =>
      if |items| > 0 then GeneratedOf(items[0])
      else Failure(Raise(UnexpectedFormatPrefix + PyStr(result)))
    case JObj(fields) =>
      if HasKey(fields, "generated_text") then Success(Get(fields, "generated_text").value)
      else if |fields| > 0 && fields[0].1.JObj? then GeneratedOf(fields[0].1)
      else Failure(Raise(UnexpectedFormatPrefix + PyStr(result)))
    case _ => Failure(Raise(UnexpectedFormatPrefix + PyStr(result)))
  }

  /** `.strip()` on the generated value, which must be a string: the text
      comes back with no whitespace left at either end and nothing else
      changed. */
  function StripValue(v: Json): (r: Result<string, Raised>)
    ensures r.Success? <==> v.JStr?
    ensures r.Success? ==> r.value == [] || (r.value[0] !in Whitespace && r.value[|r.value| - 1] !in Whitespace)
    ensures r.Success? ==> TrimmedOf(r.value, v.s, Whitespace)
    ensures !v.JStr? ==> r == Failure(Raise(NoAttribute(v, "strip")))
  {
    if v.JStr? then
      StripCharsTrims(v.s, Whitespace);
      Success(Strip(v.s))
    else Failure(Raise(NoAttribute(v, "strip")))
  }

  /** `r` is the stripped text that follows the last occurrence of the
      delimiter in `s`. */
  ghost predicate CutAtLastDelimiter(s: string, r: string) {
    r == Strip(LastPiece(s, Delimiter)) && AfterSeparator(s, Delimiter, LastPiece(s, Delimiter))
  }

  /** The part of the generated text after the last chat delimiter, stripped. */
  function AfterDelimiter(content: string): (r: string)
    ensures !Contains(r, Delimiter)
    ensures !Contains(content, Delimiter) ==> r == content
    ensures Contains(content, Delimiter) ==> CutAtLastDelimiter(content, r)
  {
    if Contains(content, Delimiter) then
      var piece := LastPiece(content, Delimiter);
      StripCharsKeepsAbsence(piece, Whitespace, Delimiter);
      Strip(piece)
    else content
  }

  /** The reply text of a validated response. The emptiness test comes before
      the delimiter is cut, so text that is only a delimiter and whitespace
      comes back empty. */
  function Extract(response: Response): (r: Result<string, Raised>)
    ensures response.json.ParseError? ==>
      r == Failure(Raise(InvalidJsonPrefix + Take(response.text, 200)))
    ensures r.Success? ==> !Contains(r.value, Delimiter)
    ensures r.Success? ==> response.json.Parsed? && GeneratedValue(response.json.value).Success?
  {
    match response.json
    case ParseError(_) => Failure(Raise(InvalidJsonPrefix + Take(response.text, 200)))
    case Parsed(result) =>
      match GeneratedValue(result)
      case Failure(e) => Failure(e)
      case Success(generated) =>
        match StripValue(generated)
        case Failure(e) => Failure(e)
        case Success(content) =>
          if content == "" then Failure(Raise(EmptyResponsePrefix + PyStr(result)))
          else Success(AfterDelimiter(content))
  }

  /** Once the generated value is a string, the reply is its stripped text
      with everything up to the last delimiter cut off, or an error when the
      stripped text is empty. */
  lemma ExtractOfGeneratedString(response: Response, text: string)
    requires response.json.Parsed? && GeneratedValue(response.json.value) == Success(JStr(text))
    ensures Strip(text) == "" ==>
      Extract(response) == Failure(Raise(EmptyResponsePrefix + PyStr(response.json.value)))
    ensures Strip(text) != "" ==> Extract(response) == Success(AfterDelimiter(Strip(text)))
  {
    assert StripValue(JStr(text)) == Success(Strip(text));
  }

  /** The common list-shaped reply: without the delimiter it comes back as
      the stripped generated text. */
  lemma ExtractPlainText(response: Response, text: string)
    requires response.json == Parsed(JArr([JObj([("generated_text", JStr(text))])]))
    requires Strip(text) != "" && !Contains(Strip(text), Delimiter)
    ensures Extract(response) == Success(Strip(text))
  {
    SingleItemListShape(text);
    ExtractOfGeneratedString(response, text);
  }

  /** A list holding one object with a generated text yields that text. */
  lemma SingleItemListShape(text: string)
    ensures GeneratedValue(JArr([JObj([("generated_text", JStr(text))])])) == Success(JStr(text))
  {
    var item := JObj([("generated_text", JStr(text))]);
    assert Get(item.fields, "generated_text") == Some(JStr(text));
  }

  /** The emptiness test runs before the delimiter is cut, so generated
      text that is just the delimiter passes it and yet yields an empty reply. */
  lemma DelimiterAloneYieldsEmpty()
    ensures AfterDelimiter(Delimiter) == ""
  {
    assert IsPrefix(Delimiter, Delimiter[0..]);
    assert Find(Delimiter, Delimiter) == Some(0);
    assert Delimiter[|Delimiter|..] == "";
  }

  /** Neither header text holds a closing bracket. */
  lemma HeaderTextsWithoutBrackets()
    ensures '>' !in "<|start_header_id|" && '>' !in "assistant<|end_header_id|"
  {
  }

  /** The characters before the first closing bracket are the start tag's. */
  lemma StartTagText(j: nat)
    requires j < 18
    ensures Delimiter[j] in "<|start_header_id|"
  {
  }

  /** The characters between the two closing brackets are the role and the
      end tag's. */
  lemma RoleAndEndTagText(j: nat)
    requires 18 < j < 44
    ensures Delimiter[j] in "assistant<|end_header_id|"
  {
  }

  /** The only closing brackets of the delimiter end its two header tags. */
  lemma ClosingBracketsOfDelimiter(j: nat)
    requires j < |Delimiter| && Delimiter[j] == '>'
    ensures j == 18 || j == 44
  {
    HeaderTextsWithoutBrackets();
    if j < 18 {
      StartTagText(j);
    } else if 18 < j < 44 {
      RoleAndEndTagText(j);
    }
  }

  /** The suffix after the first header does not start like the delimiter. */
  lemma RoleSuffixDiffers()
    ensures Delimiter[26] != Delimiter[0]
  {
    assert Delimiter[0] in "<";
    assert Delimiter[26] == 'n';
  }

  /** No proper suffix of the delimiter is also a prefix of it, so two of
      its occurrences never overlap. */
  lemma DelimiterOverlapFree()
    ensures OverlapFree(Delimiter)
  {
    forall d | 0 < d < |Delimiter| ensures !IsPrefix(Delimiter[d..], Delimiter) {
      if IsPrefix(Delimiter[d..], Delimiter) {
        var n := |Delimiter| - d;
        assert Delimiter[n - 1] == Delimiter[d..][n - 1];
        ClosingBracketsOfDelimiter(n - 1);
        RoleSuffixDiffers();
        assert false;
      }
    }
  }

  /** The reply is the stripped text after the last assistant header:
      whatever precedes that header, and whatever headers precede it, is
      cut off. */
  lemma AfterDelimiterOfTurn(x: string, b: string)
    requires !Contains(b, Delimiter)
    ensures AfterDelimiter(x + Delimiter + b) == Strip(b)
  {
    DelimiterOverlapFree();
    LastPieceAfterLast(x, Delimiter, b);
    SeparatorBefore(x, Delimiter, b);
  }

  // ---------------------------------------------------------------------------
  // The whole exchange
  // ---------------------------------------------------------------------------

  /** What one call of the adapter did: the endpoint chosen, how many real
      (non-probe) requests were sent, the seconds waited before a retry if
      any, and the reply or exception. */
  datatype Run = Run(endpoint: string, requests: nat, waited: Option<nat>, reply: Reply)

  /** Validation then extraction of the response finally used. */
  function Finish(response: Response, model: string): (r: Reply)
    ensures response.status != 200 ==> r == Failure(Raise(ValidationError(response, model).value))
    ensures response.status == 200 ==> r == Extract(response)
  {
    match ValidationError(response, model)
    case Some(message) => Failure(Raise(message))
    case None => Extract(response)
  }

  /** `analyze_code`: choose the endpoint, send the request (`first`), and on
      a 503 wait and send it once more (`retry`); the response finally held
      is validated and its text extracted. */
  function Analyze(model: string, probe: string -> Probe, first: Sent, retry: Sent): (r: Run)
    ensures 1 <= r.requests <= 2
    ensures r.endpoint in Candidates(model)
    ensures r.requests == 2 <==> first.Delivered? && first.response.status == 503 && RetryWait(first.response).Success?
    ensures r.waited.Some? <==> r.requests == 2
    ensures r.waited.Some? ==> r.waited.value <= MaxWait
    ensures r.reply.Success? ==> !Contains(r.reply.value, Delimiter)
    // A failed connection, or a wait that cannot be computed, ends the call
    // with that exception.
    ensures first.ConnectFailed? ==> r.requests == 1 && r.reply == Failure(Receive(first, false).error)
    ensures first.Delivered? && first.response.status == 503 && RetryWait(first.response).Failure? ==>
      r.reply == Failure(RetryWait(first.response).error)
    ensures first.Delivered? && first.response.status == 503 && RetryWait(first.response).Success? && retry.ConnectFailed? ==>
      r.reply == Failure(Receive(retry, true).error)
  {
    var endpoint := FindWorkingEndpoint(model, probe);
    match Receive(first, false)
    case Failure(e) => Run(endpoint, 1, None, Failure(e))
    case Success(response) =>
      if response.status != 503 then Run(endpoint, 1, None, Finish(response, model))
      else
        match RetryWait(response)
        case Failure(e) => Run(endpoint, 1, None, Failure(e))
        case Success(w) =>
          match Receive(retry, true)
          case Failure(e) => Run(endpoint, 2, Some(w), Failure(e))
          case Success(again) => Run(endpoint, 2, Some(w), Finish(again, model))
  }

  /** Without a 503 there is no retry: the first response decides. */
  lemma NoRetryUnless503(model: string, probe: string -> Probe, response: Response, retry: Sent)
    requires response.status != 503
    ensures Analyze(model, probe, Delivered(response), retry).requests == 1
    ensures Analyze(model, probe, Delivered(response), retry).reply == Finish(response, model)
  {
  }

  /** After a 503 the retried response is validated whatever its status:
      a second 503 is reported, not retried again. */
  lemma RetriedResponseIsFinal(model: string, probe: string -> Probe, busy: Response, again: Response)
    requires busy.status == 503 && RetryWait(busy).Success?
    ensures Analyze(model, probe, Delivered(busy), Delivered(again)).reply == Finish(again, model)
    ensures again.status == 503 ==>
      Analyze(model, probe, Delivered(busy), Delivered(again)).reply
        == Failure(Raise(StatusPrefix + IntToString(503) + "): " + ErrorText(again)))
  {
  }

  /** A 503 whose JSON body does not decode escapes as a JSON decode error
      before any retry. */
  lemma UndecodableBusyBody(model: string, probe: string -> Probe, busy: Response, retry: Sent)
    requires busy.status == 503 && IsPrefix("application/json", busy.contentType)
    requires busy.json.ParseError?
    ensures Analyze(model, probe, Delivered(busy), retry).reply == Failure(Undecodable(busy.json.detail))
    ensures Analyze(model, probe, Delivered(busy), retry).requests == 1
  {
  }
}

=== FILE: json.dfy ===
/** The values `json.loads` (or `Response.json()`) hands back, and the few
    things the relay does with them: `dict.get`, `isinstance`, and `str()`.
    The parser itself is not modelled: callers receive its outcome as a
    `ParseResult`. */
module Json {
  import opened Wrappers
  import opened PyStrings

  /** A decoded JSON document as Python sees it. Numbers are integers (see
      README). An object lists its entries in insertion order, as a Python
      `dict` iterates them; keys produced by the decoder are distinct. */
  datatype Json =
    | JNull
    | JBool(b: bool)
    | JInt(i: int)
    | JStr(s: string)
    | JArr(items: seq<Json>)
    | JObj(fields: seq<(string, Json)>)

  /** Outcome of decoding text: a value, or a `JSONDecodeError` with its message. */
  datatype ParseResult = Parsed(value: Json) | ParseError(detail: string)

  /** `v` is the value of the first entry of `fields` under `key`. */
  ghost predicate FirstEntry(fields: seq<(string, Json)>, key: string, v: Json) {
    exists i :: 0 <= i < |fields| && fields[i] == (key, v) && forall j :: 0 <= j < i ==> fields[j].0 != key
  }

  /** `d.get(key)`: the value stored under `key`, if any. */
  function Get(fields: seq<(string, Json)>, key: string): (r: Option<Json>)
    ensures r.None? <==> forall i :: 0 <= i < |fields| ==> fields[i].0 != key
    ensures r.Some? ==> FirstEntry(fields, key, r.value)
  {
    if |fields| == 0 then None
    else if fields[0].0 == key then
      assert fields[0] == (key, fields[0].1);
      Some(fields[0].1)
    else
      var r := Get(fields[1..], key);
      if r.Some? then
        var i :| 0 <= i < |fields[1..]| && fields[1..][i] == (key, r.value)
                 && forall j :: 0 <= j < i ==> fields[1..][j].0 != key;
        assert fields[i + 1] == (key, r.value);
        assert forall j :: 1 <= j < i + 1 ==> fields[j] == fields[1..][j - 1];
        r
      else
        assert forall i :: 1 <= i < |fields| ==> fields[i] == fields[1..][i - 1];
        r
  }

  /** No two entries share a key: how a decoded object looks, since
      `json.loads` keeps one entry per key. */
  predicate DistinctKeys(fields: seq<(string, Json)>) {
    forall i, j :: 0 <= i < j < |fields| ==> fields[i].0 != fields[j].0
  }

  /** With distinct keys, `get` returns the value of the one entry under the
      key, wherever it stands. */
  lemma GetOfDistinctKeys(fields: seq<(string, Json)>, i: nat)
    requires DistinctKeys(fields) && i < |fields|
    ensures Get(fields, fields[i].0) == Some(fields[i].1)
  {
    var r := Get(fields, fields[i].0);
    assert r.Some?;
    var k :| 0 <= k < |fields| && fields[k] == (fields[i].0, r.value)
             && forall j :: 0 <= j < k ==> fields[j].0 != fields[i].0;
    assert k == i;
  }

  /** `key in d` */
  predicate HasKey(fields: seq<(string, Json)>, key: string) {
    Get(fields, key).Some?
  }

  /** `type(v).__name__` */
  function TypeName(v: Json): string {
    match v
    case JNull => "NoneType"
    case JBool(_) => "bool"
    case JInt(_) => "int"
    case JStr(_) => "str"
    case JArr(_) => "list"
    case JObj(_) => "dict"
  }

  /** The message of the `AttributeError` raised by `v.attr` when `v` lacks it. */
  function NoAttribute(v: Json, attr: string): (r: string)
    ensures IsPrefix("'" + TypeName(v) + "' object has no attribute '", r)
    ensures |r| == |TypeName(v)| + |attr| + 29
    ensures r[|r| - |attr| - 1..] == attr + "'"
  {
    "'" + TypeName(v) + "' object has no attribute '" + attr + "'"
  }

  /** The `AttributeError` text for one attribute tells the value's type:
      two values whose messages agree have the same Python type name. */
  lemma NoAttributeNamesType(v: Json, w: Json, attr: string)
    requires NoAttribute(v, attr) == NoAttribute(w, attr)
    ensures TypeName(v) == TypeName(w)
  {
    var m := NoAttribute(v, attr);
    var tv, tw := TypeName(v), TypeName(w);
    var pv := "'" + tv + "' object has no attribute '";
    var pw := "'" + tw + "' object has no attribute '";
    assert |tv| == |tw|;
    assert pv == m[..|pv|] == pw;
    assert pv[1..|tv| + 1] == tv;
    assert pw[1..|tw| + 1] == tw;
  }

  function Join(sep: string, parts: seq<string>): string {
    if |parts| == 0 then ""
    else if |parts| == 1 then parts[0]
    else parts[0] + sep + Join(sep, parts[1..])
  }

  function HexDigit(d: nat): char
    requires d < 16
  {
    "0123456789abcdef"[d]
  }

  /** One character as `repr()` writes it inside quotes `q`. Characters outside
      ASCII are written as they are (see README). */
  function ReprChar(c: char, q: char): string {
    if c == q || c == '\\' then ['\\', c]
    else if c == '\t' then "\\t"
    else if c == '\n' then "\\n"
    else if c == '\r' then "\\r"
    else if c < ' ' || c == '\U{7F}' then ['\\', 'x', HexDigit(c as int / 16), HexDigit(c as int % 16)]
    else [c]
  }

  /** `repr(s)` for a `str`: single quotes unless the text holds a single
      quote and no double quote. */
  function ReprString(s: string): (r: string)
    ensures |r| >= 2 && r[0] == r[|r| - 1] && r[0] in {'\'', '"'}
    ensures r[0] == '"' <==> '\'' in s && '"' !in s
  {
    var q := if '\'' in s && '"' !in s then '"' else '\'';
    [q] + ReprChars(s, q) + [q]
  }

  function ReprChars(s: string, q: char): (r: string)
    ensures |r| >= |s|
  {
    if |s| == 0 then "" else ReprChar(s[0], q) + ReprChars(s[1..], q)
  }

  /** Printable ASCII other than the single quote and the backslash: the
      characters `repr` writes unchanged between single quotes. */
  predicate PlainText(s: string) {
    forall i :: 0 <= i < |s| ==> ' ' <= s[i] < '\U{7F}' && s[i] != '\'' && s[i] != '\\'
  }

  lemma {:induction false} ReprCharsOfPlain(s: string)
    requires PlainText(s)
    ensures ReprChars(s, '\'') == s
  {
    if |s| > 0 {
      assert PlainText(s[1..]) by {
        forall i | 0 <= i < |s[1..]| ensures ' ' <= s[1..][i] < '\U{7F}' && s[1..][i] != '\'' && s[1..][i] != '\\' {
          assert s[1..][i] == s[i + 1];
        }
      }
      ReprCharsOfPlain(s[1..]);
      assert ReprChar(s[0], '\'') == [s[0]];
      assert [s[0]] + s[1..] == s;
    }
  }

  /** `repr` of plain text is the text between single quotes. */
  lemma ReprOfPlainString(s: string)
    requires PlainText(s)
    ensures ReprString(s) == "'" + s + "'"
    ensures Repr(JStr(s)) == "'" + s + "'"
  {
    assert '\'' !in s by {
      forall i | 0 <= i < |s| ensures s[i] != '\'' {
      }
    }
    ReprCharsOfPlain(s);
  }

  /** `repr(v)`: lists in brackets, objects in braces, strings quoted. */
  function Repr(v: Json): (r: string)
    ensures v.JArr? ==> |r| >= 2 && r[0] == '[' && r[|r| - 1] == ']'
    ensures v.JObj? ==> |r| >= 2 && r[0] == '{' && r[|r| - 1] == '}'
    ensures v.JStr? ==> |r| >= 2 && r[0] == r[|r| - 1] && r[0] in {'\'', '"'}
    decreases v
  {
    match v
    case JNull => "None"
    case JBool(b) => if b then "True" else "False"
    case JInt(n) => IntToString(n)
    case JStr(s) => ReprString(s)
    case JArr(items) =>
      "[" + Join(", ", seq(|items|, i requires 0 <= i < |items| => Repr(items[i]))) + "]"
    case JObj(fields) =>
      "{" + Join(", ", seq(|fields|, i requires 0 <= i < |fields| =>
                             ReprString(fields[i].0) + ": " + Repr(fields[i].1))) + "}"
  }

  /** `str(v)`: a string is itself, anything else is its `repr`. */
  function PyStr(v: Json): (r: string)
    ensures v.JStr? ==> r == v.s
    ensures v.JArr? ==> |r| >= 2 && r[0] == '[' && r[|r| - 1] == ']'
    ensures v.JObj? ==> |r| >= 2 && r[0] == '{' && r[|r| - 1] == '}'
  {
    match v
    case JStr(s) => s
    case _ => Repr(v)
  }

  /** `str()` of a one-entry object with a plain key and a plain string
      value, the shape of an API error body. */
  lemma StrOfSingleEntry(key: string, value: string)
    requires PlainText(key) && PlainText(value)
    ensures PyStr(JObj([(key, JStr(value))])) == "{'" + key + "': '" + value + "'}"
  {
    ReprOfPlainString(key);
    ReprOfPlainString(value);
    var fields := [(key, JStr(value))];
    var entry := "'" + key + "'" + ": " + ("'" + value + "'");
    var parts := seq(|fields|, i requires 0 <= i < |fields| => ReprString(fields[i].0) + ": " + Repr(fields[i].1));
    assert parts == [entry];
    assert Join(", ", parts) == entry;
    assert "{" + entry + "}" == "{'" + key + "': '" + value + "'}";
  }
}

=== FILE: normaliser.dfy ===
/** The response normaliser: the raw text an adapter returns is cleaned of a
    markdown fence, decoded, and turned into a review with every field
    present; undecodable text becomes a degraded review instead of an error. */
module Normaliser {
  import opened Wrappers
  import opened PyStrings
  import opened Json

  const Fence := "```"

  /** The characters `strip("```json")` removes: the SET {`, j, s, o, n}. */
  const FenceTagChars: set<char> := CharSet("```json")

  /** The characters `strip("```")` removes. */
  const BacktickChars: set<char> := CharSet("```")

  lemma BacktickWithinFenceTag()
    ensures BacktickChars <= FenceTagChars
  {
    assert "```json"[0] == '`';
  }

  /** No whitespace character is one of {`, j, s, o, n}. */
  lemma WhitespaceOutsideFenceTag(c: char)
    requires c in Whitespace
    ensures c !in FenceTagChars && c !in BacktickChars
  {
  }

  /** Cleaning of the raw reply. Text not starting with three backticks is
      left alone; otherwise maximal runs of {`, j, s, o, n} are removed at
      both ends and then surrounding whitespace. The middle `strip("```")`
      of the source never removes anything. */
  function CleanContent(content: string): (r: string)
    ensures !IsPrefix(Fence, content) ==> r == content
    ensures IsPrefix(Fence, content) ==> r == Strip(StripChars(content, FenceTagChars))
  {
    if IsPrefix(Fence, content) then
      var once := StripChars(content, FenceTagChars);
      assert StripChars(once, BacktickChars) == once by {
        BacktickWithinFenceTag();
        StripCharsSubsetNoOp(content, FenceTagChars, BacktickChars);
      }
      Strip(StripChars(once, BacktickChars))
    else content
  }

  /** A reply fenced as "```" or "```json", with the fence lines separated
      from the body by whitespace, cleans to the body without its surrounding
      whitespace. */
  lemma {:induction false} CleanFencedReply(tag: string, w1: char, body: string, w2: char)
    requires tag == "" || tag == "json"
    requires w1 in Whitespace && w2 in Whitespace
    ensures CleanContent(Fence + tag + [w1] + body + [w2] + Fence) == Strip(body)
  {
    var x := Fence + tag;
    var m := [w1] + body + [w2];
    var content := x + m + Fence;
    assert Fence + tag + [w1] + body + [w2] + Fence == content;
    assert IsPrefix(Fence, content) by { assert content[..3] == Fence; }
    assert AllIn(x, FenceTagChars) by {
      forall i | 0 <= i < |x| ensures x[i] in FenceTagChars {
        assert "```json"[0] == '`' && "```json"[3] == 'j' && "```json"[4] == 's';
        assert "```json"[5] == 'o' && "```json"[6] == 'n';
      }
    }
    assert AllIn(Fence, FenceTagChars) by {
      assert "```json"[0] == '`';
    }
    WhitespaceOutsideFenceTag(w1);
    WhitespaceOutsideFenceTag(w2);
    StripCharsFramed(x, m, Fence, FenceTagChars);
    StripCharsPadded([w1], body, [w2], Whitespace);
  }

  /** Hence a fenced reply decodes exactly like the bare body, whenever the
      body neither starts nor ends with whitespace and is not itself fenced. */
  lemma FencedAndBareAgree(tag: string, w1: char, body: string, w2: char, parse: string -> ParseResult)
    requires tag == "" || tag == "json"
    requires w1 in Whitespace && w2 in Whitespace
    requires body == [] || (body[0] !in Whitespace && body[|body| - 1] !in Whitespace)
    requires !IsPrefix(Fence, body)
    ensures parse(CleanContent(Fence + tag + [w1] + body + [w2] + Fence)) == parse(CleanContent(body))
  {
    CleanFencedReply(tag, w1, body, w2);
    StripCharsClean(body, Whitespace);
  }

  /** The fence-tag strip of "```jsonnull```" removes the leading "n" of
      the body along with the tag. */
  lemma FenceTagStripOfNull()
    ensures StripChars("```jsonnull```", FenceTagChars) == "ull"
  {
    assert AllIn("```jsonn", FenceTagChars) by {
      assert "```json"[0] == '`' && "```json"[3] == 'j' && "```json"[4] == 's';
      assert "```json"[5] == 'o' && "```json"[6] == 'n';
    }
    assert AllIn(Fence, FenceTagChars) by { assert "```json"[0] == '`'; }
    assert 'u' !in FenceTagChars && 'l' !in FenceTagChars;
    assert "```jsonnull```" == "```jsonn" + "ull" + Fence;
    StripCharsFramed("```jsonn", "ull", Fence, FenceTagChars);
  }

  /** Because the fence tag is stripped as a set of characters, a body that
      touches the fence and starts with one of them loses it: "```jsonnull```"
      cleans to "ull". */
  lemma FenceStripEatsBodyLetters()
    ensures CleanContent("```jsonnull```") == "ull"
  {
    assert IsPrefix(Fence, "```jsonnull```") by { assert "```jsonnull```"[..3] == Fence; }
    FenceTagStripOfNull();
    StripOfVisibleEnds("ull");
  }

  /** The same body without the fence is left alone. */
  lemma BareNullIsKept()
    ensures CleanContent("null") == "null"
  {
    assert !IsPrefix(Fence, "null") by { assert "null"[0] != '`'; }
  }

  // ---------------------------------------------------------------------------
  // Defaults and the degraded review
  // ---------------------------------------------------------------------------

  /** A review as the service returns it: the four fields always present,
      each holding whatever JSON value the reply carried. */
  datatype Review = Review(summary: Json, issues: Json, suggestions: Json, improvedCode: Json)

  const DefaultSummary := "Analysis completed."
  const DegradedSummary := "Analysis completed, but response formatting encountered an issue."
  const RetryHint := "Please try reviewing the code again."

  /** The value a key passes through with: the reply's own value when the
      key is present (even `null` or empty), the default otherwise. */
  ghost predicate KeptOrDefaulted(fields: seq<(string, Json)>, key: string, default: Json, v: Json) {
    if HasKey(fields, key) then FirstEntry(fields, key, v) else v == default
  }

  /** `analysis.get(k, default)` for each of the four fields. */
  function WithDefaults(fields: seq<(string, Json)>): (r: Review)
    ensures KeptOrDefaulted(fields, "summary", JStr(DefaultSummary), r.summary)
    ensures KeptOrDefaulted(fields, "issues", JArr([]), r.issues)
    ensures KeptOrDefaulted(fields, "suggestions", JArr([]), r.suggestions)
    ensures KeptOrDefaulted(fields, "improved_code", JNull, r.improvedCode)
  {
    Review(
      Get(fields, "summary").GetOr(JStr(DefaultSummary)),
      Get(fields, "issues").GetOr(JArr([])),
      Get(fields, "suggestions").GetOr(JArr([])),
      Get(fields, "improved_code").GetOr(JNull))
  }

  /** The synthetic issue reporting a decode failure. */
  function ParseFailureIssue(detail: string): Json {
    JObj([
      ("type", JStr("error")),
      ("severity", JStr("medium")),
      ("description", JStr("Failed to parse AI response: " + detail)),
      ("line", JNull)])
  }

  /** The degraded review built when the reply cannot be decoded. */
  function Degraded(detail: string): (r: Review)
    ensures r.summary == JStr(DegradedSummary)
    ensures r.issues.JArr? && |r.issues.items| == 1
    ensures r.suggestions == JArr([JStr(RetryHint)])
    ensures r.improvedCode == JNull
  {
    Review(JStr(DegradedSummary), JArr([ParseFailureIssue(detail)]), JArr([JStr(RetryHint)]), JNull)
  }

  /** The single issue of a degraded review is an "error" of "medium"
      severity, without line, whose description carries the decoder's
      message after a fixed prefix. */
  lemma DegradedIssueShape(detail: string)
    ensures var issue := Degraded(detail).issues.items[0];
      && issue.JObj?
      && Get(issue.fields, "type") == Some(JStr("error"))
      && Get(issue.fields, "severity") == Some(JStr("medium"))
      && Get(issue.fields, "line") == Some(JNull)
      && Get(issue.fields, "description") == Some(JStr("Failed to parse AI response: " + detail))
  {
    var fields := ParseFailureIssue(detail).fields;
    assert fields[0].0[0] == 't' && fields[1].0[0] == 's' && fields[2].0[0] == 'd' && fields[3].0[0] == 'l';
    assert "line"[0] == 'l' && "description"[0] == 'd' && "severity"[0] == 's';
    assert Get(fields[3..], "line") == Some(JNull);
    assert Get(fields[2..], "line") == Some(JNull) by { assert fields[2..][1..] == fields[3..]; }
    assert Get(fields[1..], "line") == Some(JNull) by { assert fields[1..][1..] == fields[2..]; }
    assert Get(fields[2..], "description") == Some(fields[2].1);
    assert Get(fields[1..], "description") == Some(fields[2].1) by { assert fields[1..][1..] == fields[2..]; }
  }

  /** Normalisation of a raw reply, given the decoder. A decode failure never
      escapes: it becomes the degraded review. A decoded object gets its
      defaults. A decoded value that is not an object has no `.get`, and the
      `AttributeError` message is returned as `Failure` for the caller's
      exception handler. */
  function Normalise(raw: string, parse: string -> ParseResult): (r: Result<Review, string>)
    ensures parse(CleanContent(raw)).ParseError? ==>
      r == Success(Degraded(parse(CleanContent(raw)).detail))
    ensures r.Failure? <==> parse(CleanContent(raw)).Parsed? && !parse(CleanContent(raw)).value.JObj?
    ensures r.Failure? ==> r.error == NoAttribute(parse(CleanContent(raw)).value, "get")
    ensures parse(CleanContent(raw)).Parsed? && parse(CleanContent(raw)).value.JObj? ==>
      r == Success(WithDefaults(parse(CleanContent(raw)).value.fields))
  {
    match parse(CleanContent(raw))
    case ParseError(detail) => Success(Degraded(detail))
    case Parsed(JObj(fields)) => Success(WithDefaults(fields))
    case Parsed(other) => Failure(NoAttribute(other, "get"))
  }

  /** A reply whose "summary" is present but empty keeps the empty summary:
      the relay does not guarantee a non-empty summary. */
  lemma EmptySummaryPassesThrough(raw: string, parse: string -> ParseResult)
    requires parse(CleanContent(raw)) == Parsed(JObj([("summary", JStr(""))]))
    ensures Normalise(raw, parse) == Success(Review(JStr(""), JArr([]), JArr([]), JNull))
  {
  }
}

=== FILE: pystrings.dfy ===
/** The handful of Python `str` operations the relay relies on, stated over
    `string` (a sequence of Unicode scalar values, as Python's `str` is):
    `lower()`, the `in` substring test, `strip()` with and without a character
    set, `split(sep)[-1]`, slicing and `str(int)`. */
module PyStrings {
  import opened Wrappers

  // ---------------------------------------------------------------------------
  // lower()
  // ---------------------------------------------------------------------------

  /** Lower-case mapping of one character (ASCII letters only; see README). */
  function LowerChar(c: char): char {
    if 'A' <= c <= 'Z' then (c as int + 32) as char else c
  }

  function UpperChar(c: char): char {
    if 'a' <= c <= 'z' then (c as int - 32) as char else c
  }

  /** `s.lower()` */
  function Lower(s: string): (r: string)
    ensures |r| == |s|
  {
    seq(|s|, i requires 0 <= i < |s| => LowerChar(s[i]))
  }

  /** `s.upper()` */
  function Upper(s: string): (r: string)
    ensures |r| == |s|
  {
    seq(|s|, i requires 0 <= i < |s| => UpperChar(s[i]))
  }

  /** Lower-casing distributes over concatenation, so the case of a prefix
      never affects what is found in the rest of a message. */
  lemma LowerConcat(a: string, b: string)
    ensures Lower(a + b) == Lower(a) + Lower(b)
  {
    assert forall i | 0 <= i < |a + b| :: Lower(a + b)[i] == (Lower(a) + Lower(b))[i] by {
      forall i | 0 <= i < |a + b|
        ensures Lower(a + b)[i] == (Lower(a) + Lower(b))[i]
      {
        if i < |a| {
          assert (a + b)[i] == a[i];
        } else {
          assert (a + b)[i] == b[i - |a|];
        }
      }
    }
  }

  /** Changing the case of letters first does not change the lower-cased text. */
  lemma LowerOfUpper(s: string)
    ensures Lower(Upper(s)) == Lower(s)
  {
  }

  /** Text without upper-case ASCII letters is its own lower-case form. */
  lemma LowerOfLowerCase(s: string)
    requires forall i :: 0 <= i < |s| ==> !('A' <= s[i] <= 'Z')
    ensures Lower(s) == s
  {
    assert forall i :: 0 <= i < |s| ==> Lower(s)[i] == s[i];
  }

  lemma LowerIdempotent(s: string)
    ensures Lower(Lower(s)) == Lower(s)
  {
  }

  // ---------------------------------------------------------------------------
  // The `in` substring test
  // ---------------------------------------------------------------------------

  predicate IsPrefix(p: string, s: string) {
    |p| <= |s| && s[..|p|] == p
  }

  /** A copy of `p` starts at position `j` of `s`. */
  ghost predicate OccursAt(s: string, p: string, j: nat)
    requires j <= |s|
  {
    IsPrefix(p, s[j..])
  }

  /** Reference meaning of "`p` occurs in `s`": some position starts a copy of `p`. */
  ghost predicate Occurs(s: string, p: string) {
    exists i :: 0 <= i <= |s| && OccursAt(s, p, i)
  }

  /** `s.find(p, k)`, as an option: the first position from `k` on at
      which `p` starts. */
  function FindFrom(s: string, p: string, k: nat): (r: Option<nat>)
    requires k <= |s|
    ensures r.Some? ==> k <= r.value <= |s| && OccursAt(s, p, r.value)
    ensures r.Some? ==> forall j :: k <= j < r.value ==> !OccursAt(s, p, j)
    ensures r.None? ==> forall j :: k <= j <= |s| ==> !OccursAt(s, p, j)
    decreases |s| - k
  {
    if IsPrefix(p, s[k..]) then Some(k)
    else if k == |s| then None
    else FindFrom(s, p, k + 1)
  }

  /** `s.find(p)`, as an option: the first position at which `p` starts. */
  function Find(s: string, p: string): (r: Option<nat>)
    ensures r.Some? ==> r.value <= |s| && OccursAt(s, p, r.value)
    ensures r.Some? ==> forall j :: 0 <= j < r.value ==> !OccursAt(s, p, j)
    ensures r.None? ==> forall j :: 0 <= j <= |s| ==> !OccursAt(s, p, j)
  {
    FindFrom(s, p, 0)
  }

  /** Python's `p in s`. */
  predicate Contains(s: string, p: string) {
    Find(s, p).Some?
  }

  /** The computable test agrees with the reference meaning, in both directions. */
  lemma ContainsIffOccurs(s: string, p: string)
    ensures Contains(s, p) <==> Occurs(s, p)
  {
    var r := Find(s, p);
    if r.Some? {
      assert IsPrefix(p, s[r.value..]);
    }
  }

  /** An occurrence inside a slice is an occurrence in the whole string. */
  lemma ContainsOfSlice(s: string, lo: nat, hi: nat, p: string)
    requires lo <= hi <= |s|
    requires Contains(s[lo..hi], p)
    ensures Contains(s, p)
  {
    var t := s[lo..hi];
    var k := Find(t, p).value;
    assert IsPrefix(p, t[k..]);
    assert s[lo + k..][..|p|] == t[k..][..|p|];
    assert OccursAt(s, p, lo + k);
    ContainsIffOccurs(s, p);
  }

  /** Text found in `b` is still found after anything is put around it. */
  lemma ContainsInContext(a: string, b: string, c: string, p: string)
    requires Contains(b, p)
    ensures Contains(a + b + c, p)
  {
    var s := a + b + c;
    assert s[|a|..|a| + |b|] == b;
    ContainsOfSlice(s, |a|, |a| + |b|, p);
  }

  /** Any string occurs in a concatenation it is a part of. */
  lemma ContainsPart(a: string, b: string, c: string)
    ensures Contains(a + b + c, b)
  {
    ContainsSelf(b);
    ContainsInContext(a, b, c, b);
  }

  /** A word in the lower-cased start of a text is in the lower-cased text. */
  lemma ContainsLowerOfPrefix(p: string, e: string, w: string)
    requires Contains(Lower(p), w)
    ensures Contains(Lower(p + e), w)
  {
    LowerConcat(p, e);
    ContainsInContext([], Lower(p), Lower(e), w);
    assert [] + Lower(p) + Lower(e) == Lower(p + e);
  }

  /** A word is found, lower-cased, in the lower-cased text around it. */
  lemma ContainsLowerOf(p: string, w: string, q: string)
    ensures Contains(Lower(p + w + q), Lower(w))
  {
    LowerConcat(p + w, q);
    LowerConcat(p, w);
    ContainsPart(Lower(p), Lower(w), Lower(q));
  }

  /** A word is found, lower-cased, in the lower-cased text around it,
      however the text after it is pieced together. */
  lemma ContainsLowerWithin(p: string, w: string, q: string, e: string)
    ensures Contains(Lower(p + w + q + e), Lower(w))
  {
    ContainsLowerOf(p, w, q);
    ContainsLowerOfPrefix(p + w + q, e, Lower(w));
  }

  /** A string always contains itself. */
  lemma ContainsSelf(s: string)
    ensures Contains(s, s)
  {
    assert IsPrefix(s, s[0..]);
  }

  /** Containment is transitive: a message that contains "api error" contains "api". */
  lemma ContainsTransitive(s: string, t: string, p: string)
    requires Contains(s, t) && Contains(t, p)
    ensures Contains(s, p)
  {
    var i := Find(s, t).value;
    assert s[i..i + |t|] == t;
    ContainsOfSlice(s, i, i + |t|, p);
  }

  // ---------------------------------------------------------------------------
  // strip()
  // ---------------------------------------------------------------------------

  /** The characters `str.strip()` removes when called without an argument
      (those for which `str.isspace()` holds). */
  const Whitespace: set<char> := {
    '\t', '\n', '\U{0B}', '\U{0C}', '\r', '\U{1C}', '\U{1D}', '\U{1E}', '\U{1F}', ' ',
    '\U{85}', '\U{A0}', '\U{1680}',
    '\U{2000}', '\U{2001}', '\U{2002}', '\U{2003}', '\U{2004}', '\U{2005}', '\U{2006}',
    '\U{2007}', '\U{2008}', '\U{2009}', '\U{200A}',
    '\U{2028}', '\U{2029}', '\U{202F}', '\U{205F}', '\U{3000}'
  }

  /** `s.lstrip(chars)`: drops the maximal run of characters from `cs` at the front. */
  function LStrip(s: string, cs: set<char>): (r: string)
    ensures |r| <= |s| && r == s[|s| - |r|..]
    ensures forall i :: 0 <= i < |s| - |r| ==> s[i] in cs
    ensures r == [] || r[0] !in cs
    decreases |s|
  {
    if |s| > 0 && s[0] in cs then LStrip(s[1..], cs) else s
  }

  /** `s.rstrip(chars)`: drops the maximal run of characters from `cs` at the back. */
  function RStrip(s: string, cs: set<char>): (r: string)
    ensures |r| <= |s| && r == s[..|r|]
    ensures forall i :: |r| <= i < |s| ==> s[i] in cs
    ensures r == [] || r[|r| - 1] !in cs
    decreases |s|
  {
    if |s| > 0 && s[|s| - 1] in cs then RStrip(s[..|s| - 1], cs) else s
  }

  /** `s.strip(chars)`: with a string argument, Python treats it as a SET of
      characters and removes maximal runs of them from both ends. */
  function StripChars(s: string, cs: set<char>): (r: string)
    ensures |r| <= |s|
    ensures r == [] || (r[0] !in cs && r[|r| - 1] !in cs)
  {
    RStrip(LStrip(s, cs), cs)
  }

  /** The set of characters of a string: how `strip(chars)` reads its argument. */
  function CharSet(s: string): (r: set<char>)
    ensures forall i :: 0 <= i < |s| ==> s[i] in r
    ensures forall c :: c in r ==> c in s
  {
    set c | c in s
  }

  /** Visible ASCII characters are never whitespace. */
  lemma VisibleAsciiNotWhitespace(c: char)
    requires '!' <= c <= '~'
    ensures c !in Whitespace
  {
  }

  /** Stripping cannot create an occurrence: what the stripped text contains,
      the original contains. */
  lemma StripCharsKeepsAbsence(s: string, cs: set<char>, p: string)
    requires !Contains(s, p)
    ensures !Contains(StripChars(s, cs), p)
  {
    var lo, hi := StripCharsIsSlice(s, cs);
    if Contains(s[lo..hi], p) {
      ContainsOfSlice(s, lo, hi, p);
    }
  }

  /** `s.strip()` */
  function Strip(s: string): (r: string)
    ensures |r| <= |s|
    ensures StripChars(r, Whitespace) == r
  {
    StripCharsSubsetNoOp(s, Whitespace, Whitespace);
    StripChars(s, Whitespace)
  }

  /** Text that begins and ends with a visible ASCII character is already stripped. */
  lemma StripOfVisibleEnds(s: string)
    requires s != [] && '!' <= s[0] <= '~' && '!' <= s[|s| - 1] <= '~'
    ensures Strip(s) == s
  {
    VisibleAsciiNotWhitespace(s[0]);
    VisibleAsciiNotWhitespace(s[|s| - 1]);
    StripCharsClean(s, Whitespace);
  }

  /** Every character removed by `StripChars` comes from the set, and what is
      kept is one contiguous slice `s[lo..hi]` of the input. */
  lemma StripCharsIsSlice(s: string, cs: set<char>) returns (lo: nat, hi: nat)
    ensures lo <= hi <= |s| && StripChars(s, cs) == s[lo..hi]
    ensures AllIn(s[..lo], cs) && AllIn(s[hi..], cs)
  {
    var l := LStrip(s, cs);
    var r := RStrip(l, cs);
    lo := |s| - |l|;
    hi := lo + |r|;
    assert r == s[lo..hi];
    assert AllIn(s[..lo], cs);
    forall i | 0 <= i < |s| - hi ensures s[hi..][i] in cs {
      assert s[hi..][i] == l[|r| + i];
    }
  }

  /** `r` is `s` with some characters of `cs`, and only those, removed from
      its two ends. */
  ghost predicate TrimmedOf(r: string, s: string, cs: set<char>) {
    exists lo: nat, hi: nat :: lo <= hi <= |s| && r == s[lo..hi] && AllIn(s[..lo], cs) && AllIn(s[hi..], cs)
  }

  /** `StripChars` only trims, and trims as far as it can. */
  lemma StripCharsTrims(s: string, cs: set<char>)
    ensures TrimmedOf(StripChars(s, cs), s, cs)
    ensures StripChars(s, cs) == [] || (StripChars(s, cs)[0] !in cs && StripChars(s, cs)[|StripChars(s, cs)| - 1] !in cs)
  {
    var lo, hi := StripCharsIsSlice(s, cs);
  }

  /** Stripping a subset of the characters already stripped changes nothing. */
  lemma StripCharsSubsetNoOp(s: string, big: set<char>, small: set<char>)
    requires small <= big
    ensures StripChars(StripChars(s, big), small) == StripChars(s, big)
  {
    var t := StripChars(s, big);
    if t != [] {
      assert t[0] !in small;
      assert LStrip(t, small) == t;
      assert t[|t| - 1] !in small;
    }
  }

  /** Every character of `s` is in `cs`. */
  predicate AllIn(s: string, cs: set<char>) {
    forall i :: 0 <= i < |s| ==> s[i] in cs
  }

  lemma AllInConcat(a: string, b: string, cs: set<char>)
    requires AllIn(a, cs) && AllIn(b, cs)
    ensures AllIn(a + b, cs)
  {
    forall i | 0 <= i < |a + b| ensures (a + b)[i] in cs {
      if i < |a| { assert (a + b)[i] == a[i]; } else { assert (a + b)[i] == b[i - |a|]; }
    }
  }

  /** A string of set characters strips to nothing. */
  lemma StripCharsAllInSet(s: string, cs: set<char>)
    requires AllIn(s, cs)
    ensures StripChars(s, cs) == []
  {
  }

  lemma {:induction false} LStripFramed(x: string, t: string, cs: set<char>)
    requires AllIn(x, cs)
    requires t == [] || t[0] !in cs
    ensures LStrip(x + t, cs) == t
    decreases |x|
  {
    if |x| > 0 {
      assert (x + t)[1..] == x[1..] + t;
      LStripFramed(x[1..], t, cs);
    } else {
      assert x + t == t;
    }
  }

  lemma {:induction false} RStripFramed(t: string, y: string, cs: set<char>)
    requires AllIn(y, cs)
    requires t == [] || t[|t| - 1] !in cs
    ensures RStrip(t + y, cs) == t
    decreases |y|
  {
    if |y| > 0 {
      assert (t + y)[..|t + y| - 1] == t + y[..|y| - 1];
      RStripFramed(t, y[..|y| - 1], cs);
    } else {
      assert t + y == t;
    }
  }

  /** Characters outside the set bound the strip: `x + m + y` strips to
      `m` once `x` and `y` are made of set characters and `m` starts and ends
      outside it. */
  lemma StripCharsFramed(x: string, m: string, y: string, cs: set<char>)
    requires AllIn(x, cs)
    requires AllIn(y, cs)
    requires m != [] && m[0] !in cs && m[|m| - 1] !in cs
    ensures StripChars(x + m + y, cs) == m
  {
    assert x + m + y == x + (m + y);
    LStripFramed(x, m + y, cs);
    RStripFramed(m, y, cs);
  }

  /** A string with no set character at either end is left as it is. */
  lemma StripCharsClean(s: string, cs: set<char>)
    requires s == [] || (s[0] !in cs && s[|s| - 1] !in cs)
    ensures StripChars(s, cs) == s
  {
  }

  lemma Regroup(x: string, s: string, y: string, lo: nat, hi: nat)
    requires lo <= hi <= |s|
    ensures x + s + y == (x + s[..lo]) + s[lo..hi] + (s[hi..] + y)
  {
    assert s == s[..lo] + s[lo..hi] + s[hi..];
  }

  /** Padding a string with set characters on either side does not change
      what it strips to. */
  lemma StripCharsPadded(x: string, s: string, y: string, cs: set<char>)
    requires AllIn(x, cs)
    requires AllIn(y, cs)
    ensures StripChars(x + s + y, cs) == StripChars(s, cs)
  {
    var lo, hi := StripCharsIsSlice(s, cs);
    var m := s[lo..hi];
    var x' := x + s[..lo];
    var y' := s[hi..] + y;
    Regroup(x, s, y, lo, hi);
    AllInConcat(x, s[..lo], cs);
    AllInConcat(s[hi..], y, cs);
    if m == [] {
      AllInConcat(x', y', cs);
      assert x' + m + y' == x' + y';
      StripCharsAllInSet(x' + y', cs);
    } else {
      StripCharsFramed(x', m, y', cs);
    }
  }

  // ---------------------------------------------------------------------------
  // split(sep)[-1], slicing, str(int)
  // ---------------------------------------------------------------------------

  /** `s` ends with `sep` followed by `r`. */
  predicate AfterSeparator(s: string, sep: string, r: string) {
    |r| + |sep| <= |s| && IsPrefix(sep, s[|s| - |r| - |sep|..])
  }

  /** `s.split(sep)[-1]`: the piece after the last separator that Python's
      left-to-right, non-overlapping split finds. */
  function LastPiece(s: string, sep: string): (r: string)
    requires |sep| > 0
    ensures |r| <= |s| && r == s[|s| - |r|..]
    ensures !Contains(r, sep)
    ensures !Contains(s, sep) ==> r == s
    // When the separator occurs, the piece comes right after an occurrence.
    ensures Contains(s, sep) ==> AfterSeparator(s, sep, r)
    decreases |s|
  {
    match Find(s, sep)
    case None => s
    case Some(i) =>
      assert i + |sep| <= |s| by { assert IsPrefix(sep, s[i..]); }
      var t := s[i + |sep|..];
      var r := LastPiece(t, sep);
      LastPieceStep(s, sep, i, t, r);
      r
  }

  /** The piece found after the first occurrence at `i` is preceded by an
      occurrence in the whole text. */
  lemma LastPieceStep(s: string, sep: string, i: nat, t: string, r: string)
    requires |sep| > 0 && i + |sep| <= |s| && IsPrefix(sep, s[i..]) && t == s[i + |sep|..]
    requires |r| <= |t| && r == t[|t| - |r|..]
    requires !Contains(t, sep) ==> r == t
    requires Contains(t, sep) ==> AfterSeparator(t, sep, r)
    ensures r == s[|s| - |r|..]
    ensures AfterSeparator(s, sep, r)
  {
    assert s[|s| - |r|..] == t[|t| - |r|..];
    if Contains(t, sep) {
      assert s[|s| - |r| - |sep|..] == t[|t| - |r| - |sep|..];
    } else {
      assert |s| - |r| - |sep| == i;
    }
  }

  /** No two occurrences of `sep` can overlap: no proper suffix of it is
      also a prefix of it. */
  predicate OverlapFree(sep: string) {
    forall d :: 0 < d < |sep| ==> !IsPrefix(sep[d..], sep)
  }

  /** Two occurrences of `sep` that start less than its length apart make
      the tail of `sep` past their distance a prefix of it. */
  lemma OverlappingOccurrences(s: string, sep: string, p: nat, q: nat)
    requires p < q < p + |sep| && q <= |s|
    requires IsPrefix(sep, s[p..]) && IsPrefix(sep, s[q..])
    ensures IsPrefix(sep[q - p..], sep)
  {
    var d := q - p;
    forall k | 0 <= k < |sep| - d ensures sep[d + k] == sep[k] {
      assert sep[d + k] == s[p..][d + k] == s[q..][k] == sep[k];
    }
    assert sep[..|sep[d..]|] == sep[d..];
  }

  /** Of two suffixes that each follow an occurrence of an overlap-free
      separator, the longer one contains the separator. */
  lemma LongerPieceContainsSeparator(s: string, sep: string, r: string, b: string)
    requires |sep| > 0 && OverlapFree(sep)
    requires |b| < |r| <= |s| && r == s[|s| - |r|..] && b == s[|s| - |b|..]
    requires AfterSeparator(s, sep, r) && AfterSeparator(s, sep, b)
    ensures Contains(r, sep)
  {
    var p := |s| - |r| - |sep|;
    var q := |s| - |b| - |sep|;
    if q < p + |sep| {
      OverlappingOccurrences(s, sep, p, q);
      assert false;
    }
    var a := q - (|s| - |r|);
    assert r[a..a + |sep|] == s[q..q + |sep|] == sep;
    ContainsSelf(sep);
    ContainsOfSlice(r, a, a + |sep|, sep);
  }

  /** In `x + sep + b` the separator occurs, and `b` follows it. */
  lemma SeparatorBefore(x: string, sep: string, b: string)
    ensures Contains(x + sep + b, sep)
    ensures b == (x + sep + b)[|x + sep + b| - |b|..]
    ensures AfterSeparator(x + sep + b, sep, b)
  {
    var s := x + sep + b;
    assert s[|x|..] == sep + b;
    assert OccursAt(s, sep, |x|);
    ContainsIffOccurs(s, sep);
  }

  /** For an overlap-free separator, `split(sep)[-1]` is exactly the text
      after its last occurrence. */
  lemma LastPieceAfterLast(x: string, sep: string, b: string)
    requires |sep| > 0 && OverlapFree(sep)
    requires !Contains(b, sep)
    ensures LastPiece(x + sep + b, sep) == b
  {
    var s := x + sep + b;
    SeparatorBefore(x, sep, b);
    var r := LastPiece(s, sep);
    if |r| > |b| {
      LongerPieceContainsSeparator(s, sep, r, b);
    } else if |r| < |b| {
      LongerPieceContainsSeparator(s, sep, b, r);
    }
  }

  /** `s[:n]` */
  function Take(s: string, n: nat): (r: string)
    ensures |r| == if n < |s| then n else |s|
    ensures IsPrefix(r, s)
  {
    if n < |s| then s[..n] else s
  }

  function DigitChar(d: nat): char
    requires d < 10
  {
    "0123456789"[d]
  }

  function NatToString(n: nat): (r: string)
    ensures |r| > 0
    ensures forall i :: 0 <= i < |r| ==> '0' <= r[i] <= '9'
    decreases n
  {
    if n < 10 then [DigitChar(n)] else NatToString(n / 10) + [DigitChar(n % 10)]
  }

  /** `str(n)` for a Python `int`. */
  function IntToString(n: int): (r: string)
    ensures |r| > 0
    ensures (r[0] == '-') <==> n < 0
  {
    if n < 0 then "-" + NatToString(-n) else NatToString(n)
  }

  /** The number a string of decimal digits denotes. */
  function DecimalValue(s: string): nat
    requires forall i :: 0 <= i < |s| ==> '0' <= s[i] <= '9'
  {
    if |s| == 0 then 0 else DecimalValue(s[..|s| - 1]) * 10 + (s[|s| - 1] as int - '0' as int)
  }

  /** `str` of a natural number is its canonical decimal numeral: it reads
      back as the number and has no leading zero. */
  lemma {:induction false} NatToStringDenotes(n: nat)
    ensures DecimalValue(NatToString(n)) == n
    ensures NatToString(n)[0] == '0' ==> n == 0
  {
    if n >= 10 {
      NatToStringDenotes(n / 10);
      var r := NatToString(n);
      assert r[..|r| - 1] == NatToString(n / 10);
    }
  }

  /** `str(n)` reads back as `n`: an optional minus sign followed by the
      canonical numeral of the magnitude. */
  lemma IntToStringDenotes(n: int)
    ensures n < 0 ==> DecimalValue(IntToString(n)[1..]) == -n
    ensures n >= 0 ==> DecimalValue(IntToString(n)) == n
  {
    if n < 0 {
      var digits := NatToString(-n);
      NatToStringDenotes(-n);
      assert IntToString(n) == "-" + digits;
      assert IntToString(n)[1..] == digits;
    } else {
      NatToStringDenotes(n);
      assert IntToString(n) == NatToString(n);
    }
  }
}

=== FILE: service.dfy ===
/** The code review service: selects the adapter of the configured provider,
    and turns an adapter's reply into a review or an HTTP error. The reply
    (text or exception) and the JSON decoder are inputs. */
module Service {
  import opened Wrappers
  import opened PyStrings
  import opened Json
  import opened Config
  import opened Errors
  import opened Classifier
  import opened Normaliser
  import opened Adapter
  import HuggingFace
  import Gemini

  const UnknownProviderPrefix := "Unknown AI provider: "

  /** `_get_provider`: the adapter for the configured identifier, or the
      exception raised when constructing the service: the `ValueError` for an
      unknown identifier, or the Gemini adapter's own when none of its model
      names constructs (`build` says how constructing a model under a name
      goes; the other adapters' constructors cannot fail). */
  function SelectProvider(providerId: string, geminiModel: string, build: string -> Gemini.Build): (r: Result<Provider, string>)
    ensures r.Success? <==>
      providerId in {"openai", "huggingface", "groq", "gemini"}
      && (providerId == "gemini" ==> exists y :: y in Gemini.TryList(geminiModel) && build(y).Built?)
    ensures r.Success? ==> ProviderId(r.value) == providerId
    ensures ParseProvider(providerId).None? ==> r == Failure(UnknownProviderPrefix + providerId)
    ensures providerId == "gemini" && r.Failure? ==>
      r.error == Gemini.NotFoundMessage(geminiModel, build(Gemini.TryList(geminiModel)[|Gemini.TryList(geminiModel)| - 1]).error)
  {
    ParseProviderKnownIds(providerId);
    match ParseProvider(providerId)
    case Some(p) =>
      if p == Gemini then
        match Gemini.InitModel(geminiModel, build)
        case Ready(_, _) => Success(p)
        case NotFound(message) => Failure(message)
      else Success(p)
    case None => Failure(UnknownProviderPrefix + providerId)
  }

  /** Every provider can be selected by its identifier, Gemini exactly when
      one of the names it tries constructs. */
  lemma EveryProviderSelectable(p: Provider, geminiModel: string, build: string -> Gemini.Build)
    ensures p != Gemini ==> SelectProvider(ProviderId(p), geminiModel, build) == Success(p)
    ensures p == Gemini ==>
      (SelectProvider(ProviderId(p), geminiModel, build) == Success(p)
       <==> exists y :: y in Gemini.TryList(geminiModel) && build(y).Built?)
  {
    ParseProviderRoundTrip(p);
  }

  /** An identifier that passed start-up validation silently (an unknown one)
      is refused here, when the service is built. */
  lemma UnknownProviderRefusedAtSelection(s: Settings, build: string -> Gemini.Build)
    requires ParseProvider(s.providerId).None?
    ensures ValidateConfiguration(s) == Success(false)
    ensures SelectProvider(s.providerId, s.models(Gemini), build) == Failure(UnknownProviderPrefix + s.providerId)
  {
    ParseProviderKnownIds(s.providerId);
  }

  /** `analyze_code`: the reply is cleaned, decoded and given its defaults. A
      JSON decode error, whether raised by the adapter or by the decoder,
      yields the degraded review; any other exception goes through the
      classifier. */
  function AnalyzeCode(providerId: string, reply: Reply, parse: string -> ParseResult): (r: Result<Review, HttpError>)
    ensures reply.Failure? && reply.error.Undecodable? ==> r == Success(Degraded(reply.error.detail))
    ensures reply.Failure? && reply.error.Raise? ==> r == Failure(HandleException(reply.error.message, providerId))
    ensures reply.Success? ==>
      match Normalise(reply.value, parse)
      case Success(review) => r == Success(review)
      case Failure(message) => r == Failure(HandleException(message, providerId))
    ensures r.Failure? ==> r.error.status in {402, 429, 401, 502, 500} && r.error.detail.Payload?
  {
    match reply
    case Failure(Undecodable(detail)) => Success(Degraded(detail))
    case Failure(Raise(message)) => Failure(HandleException(message, providerId))
    case Success(content) =>
      match Normalise(content, parse)
      case Success(review) => Success(review)
      case Failure(message) => Failure(HandleException(message, providerId))
  }

  /** A reply that does not decode never becomes an error. */
  lemma UndecodableReplyIsDegraded(providerId: string, content: string, parse: string -> ParseResult)
    requires parse(CleanContent(content)).ParseError?
    ensures AnalyzeCode(providerId, Success(content), parse)
      == Success(Degraded(parse(CleanContent(content)).detail))
  {
  }

  /** A reply decoding to a non-object fails on `.get`, and that
      `AttributeError` goes through the classifier like any other failure. */
  lemma NonObjectReplyIsClassified(providerId: string, content: string, parse: string -> ParseResult)
    requires parse(CleanContent(content)).Parsed? && !parse(CleanContent(content)).value.JObj?
    ensures AnalyzeCode(providerId, Success(content), parse)
      == Failure(HandleException(NoAttribute(parse(CleanContent(content)).value, "get"), providerId))
  {
  }

  /** A Gemini generation failure reaches the client as 402, 429, 401 or 502,
      never as 500. */
  lemma GeminiFailureIsNeverUnexpected(providerId: string, e: string, parse: string -> ParseResult)
    ensures AnalyzeCode(providerId, Gemini.Generate(Failure(e)), parse).Failure?
    ensures AnalyzeCode(providerId, Gemini.Generate(Failure(e)), parse).error.status != 500
  {
    Gemini.GenerationFailureNeverUnexpected(e, providerId);
  }

  /** When the first request to Hugging Face cannot connect, the adapter's
      exception names the API, so it reaches the client as 402, 429, 401 or
      502, never as 500. */
  lemma HuggingFaceConnectFailureNeverUnexpected(
    providerId: string, model: string, probe: string -> HuggingFace.Probe,
    reason: string, retry: HuggingFace.Sent, parse: string -> ParseResult)
    ensures AnalyzeCode(providerId, HuggingFace.Analyze(model, probe, HuggingFace.ConnectFailed(reason), retry).reply, parse).Failure?
    ensures AnalyzeCode(providerId, HuggingFace.Analyze(model, probe, HuggingFace.ConnectFailed(reason), retry).reply, parse).error.status != 500
  {
    var raised := HuggingFace.Receive(HuggingFace.ConnectFailed(reason), false).error;
    ApiMentionNeverUnexpected(raised.message, providerId);
  }

  /** The same holds when the retry after a 503 cannot connect. */
  lemma HuggingFaceRetryConnectFailureNeverUnexpected(
    providerId: string, model: string, probe: string -> HuggingFace.Probe,
    busy: HuggingFace.Response, reason: string, parse: string -> ParseResult)
    requires busy.status == 503 && HuggingFace.RetryWait(busy).Success?
    ensures AnalyzeCode(providerId, HuggingFace.Analyze(model, probe, HuggingFace.Delivered(busy), HuggingFace.ConnectFailed(reason)).reply, parse).Failure?
    ensures AnalyzeCode(providerId, HuggingFace.Analyze(model, probe, HuggingFace.Delivered(busy), HuggingFace.ConnectFailed(reason)).reply, parse).error.status != 500
  {
    var raised := HuggingFace.Receive(HuggingFace.ConnectFailed(reason), true).error;
    ApiMentionNeverUnexpected(raised.message, providerId);
  }

  /** How a rejected Hugging Face response is reported: every status but 404
      names the API and so is never reported as unexpected, and the 401
      message names authentication, so it is reported as an authentication
      failure unless a quota or rate-limit word comes first. */
  lemma HuggingFaceValidationFailureClassified(response: HuggingFace.Response, model: string, providerId: string)
    requires response.status != 200 && response.status != 404
    ensures Classify(HuggingFace.ValidationError(response, model).value) != UnexpectedFailure
    ensures HandleException(HuggingFace.ValidationError(response, model).value, providerId).status != 500
    ensures response.status == 401 ==>
      Classify(HuggingFace.ValidationError(response, model).value) in {QuotaExceeded, RateLimited, AuthenticationFailed}
  {
    var message := HuggingFace.ValidationError(response, model).value;
    HuggingFace.ValidationErrorKeywords(response, model);
    if response.status != 401 {
      ApiMentionNeverUnexpected(message, providerId);
    }
  }

  /** A Hugging Face 503 whose JSON body does not decode ends in the degraded
      review rather than an error. */
  lemma HuggingFaceUndecodableBusyBody(
    providerId: string, model: string, probe: string -> HuggingFace.Probe,
    busy: HuggingFace.Response, retry: HuggingFace.Sent, parse: string -> ParseResult)
    requires busy.status == 503 && IsPrefix("application/json", busy.contentType)
    requires busy.json.ParseError?
    ensures AnalyzeCode(providerId, HuggingFace.Analyze(model, probe, HuggingFace.Delivered(busy), retry).reply, parse)
      == Success(Degraded(busy.json.detail))
  {
    HuggingFace.UndecodableBusyBody(model, probe, busy, retry);
  }
}

=== FILE: wrappers.dfy ===
/** Failure-compatible wrappers used throughout the model: `Option` for Python's
    "value or None" and `Result` for "value or raised exception". */
module Wrappers {

  datatype Option<+T> = None | Some(value: T) {

    /** The value, or `default` when there is none (Python's `x if x is not None else default`). */
    function GetOr(default: T): T {
      match this
      case Some(v) => v
      case None => default
    }
  }

  datatype Result<+R, +E> = Success(value: R) | Failure(error: E) {

    predicate IsFailure() {
      Failure?
    }

    function PropagateFailure<U>(): Result<U, E>
      requires Failure?
    {
      Failure(error)
    }

    function Extract(): R
      requires Success?
    {
      value
    }
  }
}
